=== FILE: README.md ===
# SimpleEQ control layer, modelled in Dafny

SimpleEQ is a three-band equaliser plugin built on JUCE. It has a low cut, a
parametric peak and a high cut, a response-curve display and a spectrum
analyzer. The numeric work is done by JUCE in floating point: filter design,
magnitude evaluation, the FFT and the decibel and logarithmic maps. This
project models the deterministic layer around those calls and proves what
that layer promises. The JUCE calls are parameters of the model (the fields
of `Dsp.DspLibrary` and `Analyzer.Analysis`), over opaque coefficient, design
and filter-state types, so every result holds whatever those calls compute.

The model has these parts:

- **Parameters** (`parameters.dfy`): the layout `createParameterLayout`
  builds (ranges, steps, defaults, slope choice labels) and the raw-value
  store. `getChainSettings` turns the store into one `ChainSettings`
  snapshot.
- **Dsp** (`dsp.dfy`): the mono filter chain as the control layer sees it.
  It holds three bypass flags, a shared peak coefficient object and two
  four-section cut bands. `Updated` is what one settings snapshot does to a
  chain.
- **Processor** (`processor.dfy`): the audio processor's control plane. It
  covers:
  - the bus-layout check;
  - clearing the output channels that have no input;
  - routing channel 1 to `leftChain` and channel 0 to `rightChain`;
  - the symmetric filter updates;
  - `prepareToPlay`;
  - the guarded state restore.
- **Analyzer** (`analyzer.dfy`): `PathProducer::process`. The mono window is
  an `array` shifted in place. The channel FIFO, the FFT data generator and
  the path generator are queues, each seen as the sequence of answers its
  pulls give.
- **Grid** (`grid.dfy`) and **Text** (`text.dfy`): the response display's
  grid values, axis-label texts and the dB-to-pixel map.
- **ResponseCurve** (`response_curve.dfy`):
  - the render and analysis areas;
  - which stages multiply into each column of the curve;
  - the curve's points;
  - the `ResponseCurveComponent` refresh cycle: a dirty flag raised by the
    parameter listener, test-and-cleared on each timer tick.
- **Slider** (`slider.dfy`): `getSliderBounds` and `getDisplayString` of the
  rotary slider.

## Model

| member | source | states |
|---|---|---|
| Text.NatToDecimal | Source/PluginProcessor.cpp:356 | the decimal text of a number is non-empty and all digits, one character long exactly for numbers below 10, and starts with '0' only for 0 itself, so it has no leading zero |
| Text.IntToDecimal | Source/PluginEditor.cpp:536 | an integer's text starts with '-' exactly when it is negative, followed by the digits of its size |
| Text.DecimalRoundTrip | Source/PluginProcessor.cpp:355-357 | reading back the decimal text of a number gives the number |
| Text.DecimalInjective | Source/PluginProcessor.cpp:354-358 | distinct numbers get distinct texts, so the four slope labels differ |
| Text.ThousandthsToDecimal | Source/PluginEditor.cpp:508-513 | the text of f/1000 is the plain whole number when f is a multiple of 1000 |
| Parameters.BuildSlopeChoices | Source/PluginProcessor.cpp:353-359 | the label loop yields label i = text of 12 + 12i followed by " db/Octave", for i = 0..3 |
| Parameters.SlopeChoiceTexts | Source/PluginProcessor.cpp:354-363 | the four slope choices read "12 db/Octave", "24 db/Octave", "36 db/Octave" and "48 db/Octave" |
| Parameters.SlopeChoiceNumber | Source/PluginProcessor.cpp:356 | the number in slope label i reads back as 12(i + 1) |
| Parameters.CreateParameterLayout | Source/PluginProcessor.cpp:320-371 | the layout lists the eleven parameters in source order, with their ranges, steps, skews and defaults and the slope labels |
| Parameters.LayoutIdsDistinct | Source/PluginProcessor.cpp:327-368 | the layout has eleven parameters and no two share an ID |
| Parameters.DefaultStoreFollowsLayout | Source/PluginProcessor.cpp:327-368 | the default store holds each parameter's default, and the defaults are within their ranges |
| Parameters.SlopeFromRaw | Source/PluginProcessor.cpp:250-251 | the cast to `Slope` picks the enumerator whose index is the raw value truncated |
| Parameters.GetChainSettings | Source/PluginProcessor.cpp:241-259 | frequencies, gain and quality are copied from the store; slopes are the truncated raw index; each bypass flag is on iff its raw value is > 0.5 |
| Parameters.ConformingStoreHasChainParameters | Source/PluginProcessor.cpp:245-256 | a store within the layout holds every value getChainSettings reads, with slopes inside the enumeration |
| Parameters.SettingsWithinRanges | Source/PluginProcessor.cpp:241-259 | settings read from a conforming store lie within the layout's ranges, and each flag is on iff its stored value is 1 |
| Parameters.DefaultChainSettings | Source/PluginProcessor.cpp:327-368 | at the defaults: low cut 20 Hz, high cut 20 kHz, peak 750 Hz, 0 dB, Q 1, both slopes 12 dB/oct, nothing bypassed, analyzer enabled |
| Dsp.PeakFilterDependsOnlyOnPeakBand | Source/PluginProcessor.cpp:261-264 | the peak design is made from the peak's frequency, quality and gain (in dB, converted to a factor) alone: settings that agree on those give the same coefficients |
| Dsp.UpdatedDependsOnlyOnCutBands | Source/PluginProcessor.cpp:266-317 | after an update, flags and peak come from the settings alone, so chains whose cut bands agreed become identical |
| Dsp.UpdateCoefficients | Source/PluginProcessor.cpp:278-282 | the held object gets the replacement's contents; the replacement is unchanged |
| Processor.IsBusesLayoutSupported | Source/PluginProcessor.cpp:135-157 | a MIDI effect accepts anything; otherwise the output must be mono or stereo and, unless a synth, the input must equal the output |
| Processor.SupportedEffectLayouts | Source/PluginProcessor.cpp:145-155 | an audio effect accepts exactly mono→mono and stereo→stereo |
| Processor.MonoLayoutHasNoChannelOne | Source/PluginProcessor.cpp:189-190 | the accepted mono layout gives a one-channel buffer, which has no channel 1 |
| Processor.SupportedLayoutsHaveChannelZero | Source/PluginProcessor.cpp:145-155 | every accepted effect layout gives one or two channels, and two exactly for stereo |
| Processor.ClearExtraOutputChannels | Source/PluginProcessor.cpp:172-173 | exactly the channels with index in [inputs, outputs) become silence of their own length; the others are untouched |
| Processor.AudioProcessor.constructor | Source/PluginProcessor.cpp:13-25 | a new processor holds the default parameter values, the given channel counts and a sample rate that stands until the first prepareToPlay, its FIFOs are unprepared, and its two chains start identical |
| Processor.AudioProcessor.UpdatePeakFilter | Source/PluginProcessor.cpp:266-276 | both chains get the peak bypass flag and the contents of one peak design; nothing else changes |
| Processor.AudioProcessor.UpdateLowCutFilters | Source/PluginProcessor.cpp:284-295 | both chains get the low-cut flag and their band loaded with one low-cut design at the settings' slope |
| Processor.AudioProcessor.UpdateHighCutFilters | Source/PluginProcessor.cpp:297-308 | the same for the high-cut band |
| Processor.AudioProcessor.UpdateFilters | Source/PluginProcessor.cpp:310-318 | both chains are updated from one settings snapshot; chains whose cut bands agreed end identical |
| Processor.AudioProcessor.PrepareToPlay | Source/PluginProcessor.cpp:94-126 | the host's rate becomes the sample rate; each chain is prepared at that rate and the block size with one channel; the filters are redesigned at that same rate; the FIFOs take the block size; the channel counts are unchanged; chains that were identical stay identical |
| Processor.AudioProcessor.FilterChannel | Source/PluginProcessor.cpp:193-197 | one chain runs over one channel in place; the other channels are untouched |
| Processor.AudioProcessor.ProcessBlock | Source/PluginProcessor.cpp:160-202 | clear, then update both chains, then channel 1 through leftChain and channel 0 through rightChain, and the buffer goes to both FIFOs; channels [in, out) are cleared with the counts as they were on entry, which the block leaves unchanged, as it does the FIFO block size; chains that were identical stay identical |
| Processor.AudioProcessor.ProcessBlockAnyLayout | Source/PluginProcessor.cpp:160-202 | the same, with channel 1 filtered only when the buffer has it, so every accepted layout can be processed |
| Processor.AudioProcessor.SetStateInformation | Source/PluginProcessor.cpp:227-239 | a valid tree replaces the store and updates the filters; an invalid one changes nothing; the channel counts and FIFO block size are unchanged; chains that were identical stay identical |
| Analyzer.Shifted | Source/PluginEditor.cpp:265-273 | the window keeps its length n; its first n − s samples are the old samples s..n−1 and its last s samples are the incoming buffer in order |
| Analyzer.Produced | Source/PluginEditor.cpp:261-276 | exactly one FFT block is produced per delivered buffer |
| Analyzer.Generated | Source/PluginEditor.cpp:293-298 | exactly one path is generated per delivered FFT block |
| Analyzer.FoldedAppend | Source/PluginEditor.cpp:261-276 | folding two runs of buffers one after the other is folding them all in arrival order |
| Analyzer.FoldedEndsWithLast | Source/PluginEditor.cpp:261-276 | after the drain, the window ends with the samples of the last buffer delivered |
| Analyzer.PathProducer.FoldIn | Source/PluginEditor.cpp:265-273 | the in-place copies leave monoBuffer equal to the shifted window |
| Analyzer.PathProducer.DrainChannelFifo | Source/PluginEditor.cpp:261-277 | pulls until the FIFO is empty; the window is every delivered buffer folded in order; each one queues one block from the window just after it, with floor −48 |
| Analyzer.PathProducer.DrainFftBlocks | Source/PluginEditor.cpp:287-298 | every queued block becomes a path for the bounds, with bin width sampleRate / fftSize and floor −48 |
| Analyzer.PathProducer.DrainPaths | Source/PluginEditor.cpp:305-307 | no paths remain; the shown path is the last available one, or unchanged when there was none |
| Analyzer.PathProducer.Process | Source/PluginEditor.cpp:255-308 | all three queues end empty, the window is the fold of the delivered buffers, and the shown path is the newest path |
| Grid.FrequencyLabel | Source/PluginEditor.cpp:502-516 | a frequency label ends in "Hz", with a 'k' before it exactly when f ≥ 1000 |
| Grid.FrequencyLabelReadsBack | Source/PluginEditor.cpp:502-516 | the number in a label reads back as f below 1000 Hz and as f / 1000 for whole kilohertz |
| Grid.FrequencyGridLabels | Source/PluginEditor.cpp:457-463 | the grid labels are 20Hz, 50Hz, 100Hz, 200Hz, 500Hz, 1kHz, 2kHz, 5kHz, 10kHz and 20kHz |
| Grid.GainLabel | Source/PluginEditor.cpp:532-536 | a gain label starts with '+' iff the gain is positive and with '-' iff it is negative |
| Grid.GainLabelReadsBack | Source/PluginEditor.cpp:532-536 | without its sign, a gain label reads back as the gain's size |
| Grid.AnalyzerLabel | Source/PluginEditor.cpp:551-552 | an analyzer label is negative exactly for lines below +24 dB |
| Grid.AnalyzerLabelReadsBack | Source/PluginEditor.cpp:551-552 | an analyzer label reads back as the line's gain less 24 |
| Grid.GainGridLabels | Source/PluginEditor.cpp:485-487 | the gain labels are -24, -12, 0, +12, +24 and the analyzer labels -48, -36, -24, -12, 0 |
| Grid.FrequencyLineX | Source/PluginEditor.cpp:473-476 | a frequency line whose log position lies in [0, 1] is drawn within the area |
| Grid.MapGainToY | Source/PluginEditor.cpp:411-413 | −24 dB maps to the area's bottom and +24 dB to its top |
| Grid.MapGainToYIsLinear | Source/PluginEditor.cpp:490 | the map is linear at −height/48 per dB, so a higher gain is drawn strictly higher |
| Grid.ZeroDbIsCentred | Source/PluginEditor.cpp:489-494 | the 0 dB line lies halfway between top and bottom |
| ResponseCurve.GetRenderArea | Source/PluginEditor.cpp:565-579 | the bounds inset by 12 at the top, 5 at the bottom and 20 on each side when no inset clamps; always inside the bounds |
| ResponseCurve.GetAnalysisArea | Source/PluginEditor.cpp:581-588 | the render area inset by a further 4 at the top and bottom, with the same x and width |
| ResponseCurve.ActiveStages | Source/PluginEditor.cpp:378-402 | a stage is among those multiplied in iff it contributes: peak iff not bypassed; cut section k iff its band and section k are both not bypassed |
| ResponseCurve.GatedProductIsActiveProduct | Source/PluginEditor.cpp:375-402 | bypassed stages leave the gain unchanged: the gated product is the plain product over the contributing stages |
| ResponseCurve.NothingContributesIsUnity | Source/PluginEditor.cpp:375 | with every stage bypassed the column gain stays at its starting value 1 |
| ResponseCurve.ColumnMagnitude | Source/PluginEditor.cpp:375-402 | the nine guarded multiplications give the gated product over all stages |
| ResponseCurve.ResponseMagnitudes | Source/PluginEditor.cpp:371-405 | one value per pixel column: the decibels of the column gain at the column's log-scaled frequency |
| ResponseCurve.CurvePath | Source/PluginEditor.cpp:408-419 | one point per column, at x = area.x + i and the height the column's dB maps to |
| ResponseCurve.ResponseCurveComponent.constructor | Source/PluginEditor.cpp:230-242 | the component starts with its chain updated once from the processor's parameters |
| ResponseCurve.ResponseCurveComponent.ParameterValueChanged | Source/PluginEditor.cpp:251-253 | any parameter change raises the dirty flag |
| ResponseCurve.ResponseCurveComponent.UpdateChain | Source/PluginEditor.cpp:333-350 | the display chain gets what one settings snapshot gives the processor's chains |
| ResponseCurve.ResponseCurveComponent.TimerCallback | Source/PluginEditor.cpp:310-331 | when the analyzer is shown, each producer's window is its delivered buffers folded in, its three queues end empty and it shows its newest path; the chain's configuration is updated iff the flag was raised and its filter memory is unchanged; the flag ends lowered; one repaint per tick |
| ResponseCurve.ResponseCurveComponent.TwoTicks | Source/PluginEditor.cpp:321-330 | two ticks with no change between update the chain at most once, and only for a change made before the first |
| ResponseCurve.ResponseCurveComponent.Paint | Source/PluginEditor.cpp:361-436 | the curve spans the analysis area column by column; analyzer paths are shown, shifted to the area's corner, only when enabled |
| Slider.GetSliderBounds | Source/PluginEditor.cpp:181-194 | a square of side min(w, h) − 2·textHeight at y = 2, horizontally centred within a pixel and inside the bounds |
| Slider.GetDisplayString | Source/PluginEditor.cpp:196-227 | choice name for a choice; kilo-scaling with 2 decimals iff value ≥ 1000; a non-empty suffix follows a space, with 'k' iff scaled |

## Left out

- JUCE's numeric calls are uninterpreted fields of `DspLibrary` and `Analysis`. These are the IIR designs, `getMagnitudeForFrequency`, the decibel conversions, `mapToLog10`/`mapFromLog10`, preparing and running a chain, and `updateCutFilter`. The same goes for the FFT data generator's `produceFFTDataForRendering` and the path generator's `generatePath`. Their code is not part of this model.
- Floating point:
  - stored values are `real`;
  - the curve's `mag *= …` uses the library's `multiply`, because double products round and do not reassociate;
  - `juce::String(value, places)` is the `format` parameter of `GetDisplayString`.
- Grid.FrequencyLabel: the text is the exact decimal of f/1000. The source streams a float. The two agree for every grid frequency, but a kilohertz value that binary floating point cannot hold exactly would print differently.
- The FIFO and the generators' queues: the model sees each queue as its sequence of pull results. Capacity, overwriting of old buffers and the handoff between threads are not modelled. The buffers `processBlock` hands to the FIFOs are kept as ghost logs and are not linked to the producers' queues.
- Timer, listener and audio-thread concurrency and the atomic flag: the refresh cycle is sequential.
- The `ValueTree` format, and `getStateInformation`. `SetStateInformation` takes the decoded tree as an `Option` of raw values.
- Processor.AudioProcessor.SetStateInformation: requires a valid tree's values to lie within the layout's ranges. The parameter layer enforces this when it loads them, and this model does not include that layer.
- Parameters.GetChainSettings: requires the ten chain parameters to be present with slopes in 0..3. Every store built from the layout meets this (`ConformingStoreHasChainParameters`).
- Analyzer.PathProducer.FoldIn: requires every buffer folded in to be no longer than the analysis window. The source does not check this: the FIFOs take the host's block size (Source/PluginProcessor.cpp:117-118), and a block longer than the window makes the copy at Source/PluginEditor.cpp:268 use a negative count and read past the end, which is undefined. The window size is set in a header that is not part of this model.
- Analyzer.PathProducer.FoldIn: the first copy moves samples [size, n) of the window to [0, n − size) within the same buffer. Those ranges overlap whenever 2·size < n. The model takes the copy as a forward, element-by-element move, which gives the intended shift. A copy routine free to assume non-overlapping ranges, as `memcpy` is, need not give it. `FloatVectorOperations::copy` is not part of this model.
- Analyzer.PathProducer.DrainChannelFifo: requires, through `Valid()`, that every buffer waiting in the FIFO fits in the window, for the reason given for `FoldIn`.
- Analyzer.PathProducer.Process: the same requirement, through `Valid()`.
- ResponseCurve.ResponseCurveComponent.TimerCallback: the same requirement, through the producers' `Valid()`.
- ResponseCurve.ResponseCurveComponent.Paint: requires an analysis area at least one column wide. The source reads the first magnitude of the vector, which is undefined for a width of 0.
- The host's sample rate and channel counts are host state. Here the counts are set when the processor is built. The rate is set at construction and replaced by the rate each `prepareToPlay` receives, which is what `getSampleRate()` returns after the host has prepared the plugin. The filter designs, the analyzer's bin width and the editor's `UpdateChain` all read that one field.
- The test oscillator in `prepareToPlay`, and the host and program boilerplate.
- All drawing: colours, fonts, strokes, `LookAndFeel`, `RotarySliderWithLabels::paint`, the editor's `resized` layout and the bypass buttons' `onClick` enabling. The grid's label rectangles are drawing too.
- `toggleAnalysisEnablement`, `getTextHeight` and the component's default `shouldShowFFTAnalysis` are declared in headers that are not part of this model. They are parameters here.
- The order of the three updates in `updateFilters` is kept in the method body. It is not observable, because the updates touch disjoint parts of a chain.

## Findings

| source | as written | input that shows it | evidently intended | confidence | as-written member | corrected member |
|---|---|---|---|---|---|---|
| Source/PluginProcessor.cpp:145-190 | the layout check accepts mono in / mono out, but processBlock always takes channel 1 for leftChain | layout (mono, mono): the buffer has one channel, so channel 1 does not exist | filter channel 1 only when the buffer has it; a mono buffer goes through rightChain alone | medium, not executed | Processor.MonoLayoutHasNoChannelOne | Processor.AudioProcessor.ProcessBlockAnyLayout |

=== FILE: analyzer.dfy ===
/** The spectrum analyzer's consumer side, PathProducer::process.

    Each call drains three queues in turn.  Every complete buffer pulled from
    the channel FIFO is folded into a fixed-length mono window, and the
    window is handed to the FFT data generator.  Every FFT data block is
    turned into a path.  Every path is pulled, so that the last one stays
    displayed.

    The FIFO, the FFT data generator and the path generator are not part of
    this model.  The model sees each queue as the sequence of answers its
    pulls will give, oldest first.  `None` stands for a pull that reports
    failure; each pull, failed or not, takes one entry.  Handing a window to
    the generator queues the one block `produceFFTData` computes from it, and
    generating a path queues the one path `generatePath` computes. */
module Analyzer {
  import opened Wrappers
  import opened Geometry

  /** The decibel level drawn as the bottom of the analyzer, passed to both
      the FFT data generator and the path generator. */
  const FloorDb: real := -48.0

  /** The generator operations the model takes as given. */
  datatype Analysis<!T> = Analysis(
    fftSize: nat,
    produceFFTData: (seq<T>, real) -> seq<real>,
    generatePath: (seq<real>, Rect, nat, real, real) -> Path)

  /** The window after a buffer of `incoming` samples is folded in: the
      oldest |incoming| samples drop out at the front, the rest move to the
      front in order, and the new samples fill the end in order. */
  function Shifted<T>(window: seq<T>, incoming: seq<T>): (r: seq<T>)
    requires |incoming| <= |window|
    ensures |r| == |window|
    ensures forall i :: 0 <= i < |window| - |incoming| ==> r[i] == window[i + |incoming|]
    ensures forall j :: 0 <= j < |incoming| ==> r[|window| - |incoming| + j] == incoming[j]
  {
    window[|incoming|..] + incoming
  }

  /** Every buffer the FIFO will hand out fits in a window of `n` samples. */
  ghost predicate Fits<T>(pulls: seq<Option<seq<T>>>, n: nat) {
    forall k :: 0 <= k < |pulls| && pulls[k].Some? ==> |pulls[k].value| <= n
  }

  lemma FitsTail<T>(pulls: seq<Option<seq<T>>>, n: nat)
    requires Fits(pulls, n) && pulls != []
    ensures Fits(pulls[1..], n)
    ensures pulls[0].Some? ==> |pulls[0].value| <= n
  {
    forall k | 0 <= k < |pulls[1..]| && pulls[1..][k].Some? ensures |pulls[1..][k].value| <= n {
      assert pulls[1..][k] == pulls[k + 1];
    }
  }

  /** The number of pulls that deliver something. */
  function Delivered<X>(pulls: seq<Option<X>>): (n: nat)
    ensures n <= |pulls|
  {
    if pulls == [] then 0 else (if pulls[0].Some? then 1 else 0) + Delivered(pulls[1..])
  }

  function Step<T>(window: seq<T>, pull: Option<seq<T>>): seq<T>
    requires pull.Some? ==> |pull.value| <= |window|
  {
    if pull.Some? then Shifted(window, pull.value) else window
  }

  /** The window after every delivered buffer is folded in, in arrival order. */
  function Folded<T>(window: seq<T>, pulls: seq<Option<seq<T>>>): (r: seq<T>)
    requires Fits(pulls, |window|)
    ensures |r| == |window|
    decreases |pulls|
  {
    if pulls == [] then window
    else
      FitsTail(pulls, |window|);
      Folded(Step(window, pulls[0]), pulls[1..])
  }

  /** The FFT data blocks the generator queues while the FIFO is drained: one
      per delivered buffer, computed from the window just after that buffer
      is folded in, always with the -48 dB floor. */
  function Produced<T>(window: seq<T>, pulls: seq<Option<seq<T>>>, a: Analysis<T>): (blocks: seq<Option<seq<real>>>)
    requires Fits(pulls, |window|)
    ensures |blocks| == Delivered(pulls)
    ensures forall k :: 0 <= k < |blocks| ==> blocks[k].Some?
    decreases |pulls|
  {
    if pulls == [] then []
    else
      FitsTail(pulls, |window|);
      var next := Step(window, pulls[0]);
      (if pulls[0].Some? then [Some(a.produceFFTData(next, FloorDb))] else [])
      + Produced(next, pulls[1..], a)
  }

  /** The paths generated from FFT data blocks: one per block delivered. */
  function Generated<T>(blocks: seq<Option<seq<real>>>, bounds: Rect, binWidth: real, a: Analysis<T>): (ps: seq<Path>)
    ensures |ps| == Delivered(blocks)
  {
    if blocks == [] then []
    else
      (if blocks[0].Some? then [a.generatePath(blocks[0].value, bounds, a.fftSize, binWidth, FloorDb)] else [])
      + Generated(blocks[1..], bounds, binWidth, a)
  }

  /** The last element of `xs`, or `otherwise` when there is none. */
  function LastOr<X>(xs: seq<X>, otherwise: X): X {
    if xs == [] then otherwise else xs[|xs| - 1]
  }

  /** The path displayed after a call of process. */
  function DisplayedPath<T>(
    window: seq<T>, pulls: seq<Option<seq<T>>>, blocks: seq<Option<seq<real>>>, paths: seq<Path>,
    shown: Path, bounds: Rect, sampleRate: real, a: Analysis<T>): Path
    requires Fits(pulls, |window|) && a.fftSize > 0
  {
    LastOr(paths + Generated(blocks + Produced(window, pulls, a), bounds, sampleRate / a.fftSize as real, a), shown)
  }

  /** Folding two runs of buffers one after the other is folding them all in
      arrival order. */
  lemma {:induction false} FoldedAppend<T>(window: seq<T>, first: seq<Option<seq<T>>>, second: seq<Option<seq<T>>>)
    requires Fits(first, |window|) && Fits(second, |window|)
    ensures Fits(first + second, |window|)
    ensures Folded(window, first + second) == Folded(Folded(window, first), second)
    decreases |first|
  {
    assert Fits(first + second, |window|) by {
      forall k | 0 <= k < |first + second| && (first + second)[k].Some?
        ensures |(first + second)[k].value| <= |window|
      {
        if k >= |first| { assert (first + second)[k] == second[k - |first|]; }
      }
    }
    if first == [] {
      assert first + second == second;
    } else {
      var both := first + second;
      assert both[0] == first[0] && both[1..] == first[1..] + second;
      FitsTail(first, |window|);
      FitsTail(both, |window|);
      var next := Step(window, first[0]);
      FoldedAppend(next, first[1..], second);
      calc {
        Folded(window, both);
        Folded(next, first[1..] + second);
        Folded(Folded(next, first[1..]), second);
        Folded(Folded(window, first), second);
      }
    }
  }

  /** After the buffers are folded in, the window ends with the samples of
      the last buffer delivered. */
  lemma FoldedEndsWithLast<T>(window: seq<T>, earlier: seq<Option<seq<T>>>, last: seq<T>)
    requires Fits(earlier, |window|) && |last| <= |window|
    ensures Fits(earlier + [Some(last)], |window|)
    ensures Folded(window, earlier + [Some(last)])[|window| - |last|..] == last
  {
    assert Fits([Some(last)], |window|);
    FoldedAppend(window, earlier, [Some(last)]);
    var w := Folded(window, earlier);
    assert Folded(w, [Some(last)]) == Folded(Shifted(w, last), []);
  }

  /** One pull of the drain loop: the fold and the blocks of the whole queue
      are those of its first pull followed by those of the rest. */
  lemma DrainStep<T>(window: seq<T>, pulls: seq<Option<seq<T>>>, a: Analysis<T>)
    requires Fits(pulls, |window|) && pulls != []
    ensures Fits(pulls[1..], |window|) && (pulls[0].Some? ==> |pulls[0].value| <= |window|)
    ensures |Step(window, pulls[0])| == |window|
    ensures Folded(window, pulls) == Folded(Step(window, pulls[0]), pulls[1..])
    ensures Produced(window, pulls, a) ==
      (if pulls[0].Some? then [Some(a.produceFFTData(Step(window, pulls[0]), FloorDb))] else [])
      + Produced(Step(window, pulls[0]), pulls[1..], a)
  {
    FitsTail(pulls, |window|);
  }

  lemma AppendAssociative<X>(xs: seq<X>, ys: seq<X>, zs: seq<X>)
    ensures (xs + ys) + zs == xs + (ys + zs)
  {
  }

  /** The analyzer state one PathProducer owns: the mono window, the three
      queues it drains and the path it shows. */
  class PathProducer<T> {
    var monoBuffer: array<T>
    var channelFifo: seq<Option<seq<T>>>
    var fftBlocks: seq<Option<seq<real>>>
    var paths: seq<Path>
    var fftPath: Path

    ghost predicate Valid()
      reads this
    {
      Fits(channelFifo, monoBuffer.Length)
    }

    constructor (windowSize: nat, zero: T)
      ensures Valid() && fresh(monoBuffer)
      ensures monoBuffer.Length == windowSize && monoBuffer[..] == seq(windowSize, _ => zero)
      ensures channelFifo == [] && fftBlocks == [] && paths == [] && fftPath == []
    {
      monoBuffer := new T[windowSize](_ => zero);
      channelFifo, fftBlocks, paths, fftPath := [], [], [], [];
    }

    /** The two copies of process that fold one buffer into the window: the
        surviving samples move to the front, then the new samples are
        copied to the end. */
    method FoldIn(incoming: seq<T>)
      requires |incoming| <= monoBuffer.Length
      modifies monoBuffer
      ensures monoBuffer[..] == Shifted(old(monoBuffer[..]), incoming)
    {
      var n, size := monoBuffer.Length, |incoming|;
      for i := 0 to n - size
        invariant forall k :: 0 <= k < i ==> monoBuffer[k] == old(monoBuffer[k + size])
        invariant forall k :: i <= k < n ==> monoBuffer[k] == old(monoBuffer[k])
      {
        monoBuffer[i] := monoBuffer[i + size];
      }
      for j := 0 to size
        invariant forall k :: 0 <= k < n - size ==> monoBuffer[k] == old(monoBuffer[k + size])
        invariant forall k :: 0 <= k < j ==> monoBuffer[n - size + k] == incoming[k]
      {
        monoBuffer[n - size + j] := incoming[j];
      }
      assert monoBuffer[..] == Shifted(old(monoBuffer[..]), incoming);
    }

    /** The first loop of process: pull until the FIFO reports no complete
        buffer; fold each delivered buffer into the window and hand the
        window to the generator. */
    method DrainChannelFifo(a: Analysis<T>)
      requires Valid()
      modifies this, monoBuffer
      ensures Valid() && monoBuffer == old(monoBuffer) && channelFifo == []
      ensures monoBuffer[..] == Folded(old(monoBuffer[..]), old(channelFifo))
      ensures fftBlocks == old(fftBlocks) + Produced(old(monoBuffer[..]), old(channelFifo), a)
      ensures paths == old(paths) && fftPath == old(fftPath)
    {
      ghost var window0, pulls0, blocks0 := monoBuffer[..], channelFifo, fftBlocks;
      while |channelFifo| > 0
        invariant monoBuffer == old(monoBuffer) && Fits(channelFifo, monoBuffer.Length)
        invariant Folded(monoBuffer[..], channelFifo) == Folded(window0, pulls0)
        invariant fftBlocks + Produced(monoBuffer[..], channelFifo, a) == blocks0 + Produced(window0, pulls0, a)
        invariant paths == old(paths) && fftPath == old(fftPath)
        decreases |channelFifo|
      {
        ghost var before, rest, blocksBefore := monoBuffer[..], channelFifo, fftBlocks;
        DrainStep(before, rest, a);
        var pull := channelFifo[0];
        channelFifo := channelFifo[1..];
        if pull.Some? {
          FoldIn(pull.value);
          fftBlocks := fftBlocks + [Some(a.produceFFTData(monoBuffer[..], FloorDb))];
        }
        assert monoBuffer[..] == Step(before, pull);
        ghost var produced := if pull.Some? then [Some(a.produceFFTData(Step(before, pull), FloorDb))] else [];
        assert fftBlocks == blocksBefore + produced;
        AppendAssociative(blocksBefore, produced, Produced(Step(before, pull), channelFifo, a));
      }
    }

    /** The second loop of process: turn every available FFT data block into
        a path for the given bounds, with the bin width sampleRate / fftSize
        and the -48 dB floor. */
    method DrainFftBlocks(fftBounds: Rect, sampleRate: real, a: Analysis<T>)
      requires a.fftSize > 0
      modifies this
      ensures fftBlocks == []
      ensures paths == old(paths) + Generated(old(fftBlocks), fftBounds, sampleRate / a.fftSize as real, a)
      ensures monoBuffer == old(monoBuffer) && channelFifo == old(channelFifo) && fftPath == old(fftPath)
    {
      var fftSize := a.fftSize;
      var binWidth := sampleRate / fftSize as real;
      while |fftBlocks| > 0
        invariant paths + Generated(fftBlocks, fftBounds, binWidth, a) ==
          old(paths) + Generated(old(fftBlocks), fftBounds, binWidth, a)
        invariant monoBuffer == old(monoBuffer) && channelFifo == old(channelFifo) && fftPath == old(fftPath)
        decreases |fftBlocks|
      {
        var fftData := fftBlocks[0];
        fftBlocks := fftBlocks[1..];
        if fftData.Some? {
          paths := paths + [a.generatePath(fftData.value, fftBounds, fftSize, binWidth, FloorDb)];
        }
      }
    }

    /** The last loop of process: pull every available path; the one shown is
        the last pulled, or the previous one when there was none. */
    method DrainPaths()
      modifies this
      ensures paths == [] && fftPath == LastOr(old(paths), old(fftPath))
      ensures monoBuffer == old(monoBuffer) && channelFifo == old(channelFifo) && fftBlocks == old(fftBlocks)
    {
      while |paths| > 0
        invariant LastOr(paths, fftPath) == LastOr(old(paths), old(fftPath))
        invariant monoBuffer == old(monoBuffer) && channelFifo == old(channelFifo) && fftBlocks == old(fftBlocks)
        decreases |paths|
      {
        fftPath := paths[0];
        paths := paths[1..];
      }
    }

    /** PathProducer::process: all three queues end empty, the window holds
        every delivered buffer folded in, and the path shown is the newest
        path, unchanged when no path was available. */
    method Process(fftBounds: Rect, sampleRate: real, a: Analysis<T>)
      requires Valid() && a.fftSize > 0
      modifies this, monoBuffer
      ensures Valid() && monoBuffer == old(monoBuffer)
      ensures monoBuffer[..] == Folded(old(monoBuffer[..]), old(channelFifo))
      ensures channelFifo == [] && fftBlocks == [] && paths == []
      ensures fftPath == DisplayedPath(old(monoBuffer[..]), old(channelFifo), old(fftBlocks), old(paths),
        old(fftPath), fftBounds, sampleRate, a)
    {
      DrainChannelFifo(a);
      DrainFftBlocks(fftBounds, sampleRate, a);
      DrainPaths();
    }
  }
}

=== FILE: dsp.dfy ===
/** The filter chain as the control layer sees it.

    The numeric work (coefficient design, magnitude evaluation, running the
    cascade over samples, the decibel and logarithmic mappings) belongs to the
    JUCE library and to helpers whose code is not part of this model.  They
    appear as the fields of `DspLibrary`, over the opaque types below, so that
    every statement about the control layer holds whatever those operations
    compute. */
module Dsp {
  import opened Parameters

  /** The taps of one IIR coefficient object. */
  type CoefficientSet

  /** What makeLowCutFilter / makeHighCutFilter return for one cut band. */
  type CutDesign

  /** The delay memory a mono chain carries from one block to the next. */
  type FilterState

  /** One second-order section of a cut band. */
  datatype Section = Section(coefficients: CoefficientSet, bypassed: bool)

  /** A cut band: a cascade of four sections, each separately bypassable. */
  datatype CutFilter = CutFilter(s0: Section, s1: Section, s2: Section, s3: Section) {
    function Sections(): seq<Section> {
      [s0, s1, s2, s3]
    }
  }

  /** The chain positions of a mono chain, in processing order. */
  datatype ChainPosition = LowCut | Peak | HighCut

  /** The settings a chain is prepared with. */
  datatype ProcessSpec = ProcessSpec(sampleRate: real, maximumBlockSize: nat, numChannels: nat)

  /** A value snapshot of everything a mono chain's response depends on: the
      bypass flag of each position, the peak coefficients and the two cut
      bands. */
  datatype ChainConfig = ChainConfig(
    lowCutBypassed: bool, peakBypassed: bool, highCutBypassed: bool,
    peak: CoefficientSet, lowCut: CutFilter, highCut: CutFilter)

  /** The operations the model takes as given.
      - makePeakCoefficients(sampleRate, frequency, quality, gain): the IIR
        peak design;
      - decibelsToGain, gainToDecibels: the decibel conversions;
      - makeLowCutFilter, makeHighCutFilter, updateCutFilter: the cut-band
        designs and the routine that loads a design into a cut band for a
        slope;
      - prepare, process: preparing a mono chain and running it over one
        channel of samples, returning the new delay memory and the output;
      - magnitudeForFrequency(coefficients, frequency, sampleRate), and
        multiply, the double-precision product the response curve
        accumulates those magnitudes with;
      - mapToLog10, mapFromLog10: between [0, 1] and [20, 20000] Hz on a
        logarithmic scale. */
  datatype DspLibrary = DspLibrary(
    makePeakCoefficients: (real, real, real, real) -> CoefficientSet,
    decibelsToGain: real -> real,
    gainToDecibels: real -> real,
    makeLowCutFilter: (ChainSettings, real) -> CutDesign,
    makeHighCutFilter: (ChainSettings, real) -> CutDesign,
    updateCutFilter: (CutFilter, CutDesign, Slope) -> CutFilter,
    prepare: ProcessSpec -> FilterState,
    process: (ChainConfig, FilterState, seq<real>) -> (FilterState, seq<real>),
    magnitudeForFrequency: (CoefficientSet, real, real) -> real,
    multiply: (real, real) -> real,
    mapToLog10: real -> real,
    mapFromLog10: real -> real)

  /** makePeakFilter: the peak design at the settings' frequency and quality,
      with the gain converted from decibels to a linear factor. */
  function MakePeakFilter(lib: DspLibrary, s: ChainSettings, sampleRate: real): CoefficientSet {
    lib.makePeakCoefficients(sampleRate, s.peakFreq, s.peakQuality, lib.decibelsToGain(s.peakGainInDecibels))
  }

  /** The peak design reads only the peak band's settings: the cut bands,
      the slopes and the bypass flags have no say in it. */
  lemma PeakFilterDependsOnlyOnPeakBand(lib: DspLibrary, s1: ChainSettings, s2: ChainSettings, sampleRate: real)
    requires s1.peakFreq == s2.peakFreq && s1.peakQuality == s2.peakQuality
    requires s1.peakGainInDecibels == s2.peakGainInDecibels
    ensures MakePeakFilter(lib, s1, sampleRate) == MakePeakFilter(lib, s2, sampleRate)
  {
  }

  /** A chain after the peak, low-cut and high-cut updates from one settings
      snapshot. */
  function Updated(c: ChainConfig, s: ChainSettings, sampleRate: real, lib: DspLibrary): ChainConfig {
    ChainConfig(
      s.lowCutBypassed, s.peakBypassed, s.highCutBypassed,
      MakePeakFilter(lib, s, sampleRate),
      lib.updateCutFilter(c.lowCut, lib.makeLowCutFilter(s, sampleRate), s.lowCutSlope),
      lib.updateCutFilter(c.highCut, lib.makeHighCutFilter(s, sampleRate), s.highCutSlope))
  }

  /** After an update the bypass flags and the peak coefficients are those of
      the settings, whatever they were before: two chains whose cut bands
      agree become identical, even if their flags or peak differed. */
  lemma UpdatedDependsOnlyOnCutBands(c1: ChainConfig, c2: ChainConfig, s: ChainSettings, sampleRate: real, lib: DspLibrary)
    requires c1.lowCut == c2.lowCut && c1.highCut == c2.highCut
    ensures Updated(c1, s, sampleRate, lib) == Updated(c2, s, sampleRate, lib)
    ensures Updated(c1, s, sampleRate, lib).peakBypassed == s.peakBypassed
    ensures Updated(c1, s, sampleRate, lib).lowCutBypassed == s.lowCutBypassed
    ensures Updated(c1, s, sampleRate, lib).highCutBypassed == s.highCutBypassed
  {
  }

  /** A shared, heap-allocated coefficient object. */
  class Coefficients {
    var values: CoefficientSet

    constructor (values: CoefficientSet)
      ensures this.values == values
    {
      this.values := values;
    }
  }

  /** updateCoefficients: copy the replacement's contents into the object the
      chain already holds.  The holder keeps its object; the replacement is
      left as it was. */
  method UpdateCoefficients(target: Coefficients, replacement: Coefficients)
    modifies target
    ensures target.values == old(replacement.values)
    ensures replacement.values == old(replacement.values)
  {
    target.values := replacement.values;
  }

  /** A mono filter chain: low cut, peak, high cut.  The peak stage holds one
      coefficient object for the chain's whole life. */
  class MonoChain {
    var lowCutBypassed: bool
    var peakBypassed: bool
    var highCutBypassed: bool
    const peak: Coefficients
    var lowCut: CutFilter
    var highCut: CutFilter
    var state: FilterState

    constructor (config: ChainConfig, state: FilterState)
      ensures fresh(peak)
      ensures Config() == config && this.state == state
    {
      lowCutBypassed, peakBypassed, highCutBypassed := config.lowCutBypassed, config.peakBypassed, config.highCutBypassed;
      peak := new Coefficients(config.peak);
      lowCut, highCut := config.lowCut, config.highCut;
      this.state := state;
    }

    function Config(): ChainConfig
      reads this, peak
    {
      ChainConfig(lowCutBypassed, peakBypassed, highCutBypassed, peak.values, lowCut, highCut)
    }
  }
}

=== FILE: geometry.dfy ===
/** Integer rectangles as the editor's components lay themselves out, the
    rectangle operations the editor uses, and the points and paths it draws.

    The rectangle operations follow juce::Rectangle<int>: removing a strip
    from one side never removes more than the rectangle has on that side, so
    a rectangle never gets a negative width or height from them. */
module Geometry {

  datatype Rect = Rect(x: int, y: int, width: int, height: int) {
    function Right(): int {
      x + width
    }

    function Bottom(): int {
      y + height
    }

    /** getCentreX: the integer half-width is truncated toward zero. */
    function CentreX(): int {
      x + TruncDiv(width, 2)
    }

    predicate NonNegative() {
      width >= 0 && height >= 0
    }

    /** `inner` lies within this rectangle. */
    predicate Encloses(inner: Rect) {
      x <= inner.x && inner.Right() <= Right() && y <= inner.y && inner.Bottom() <= Bottom()
    }
  }

  /** getLocalBounds: a component's own area, at the origin. */
  function LocalBounds(width: int, height: int): Rect {
    Rect(0, 0, width, height)
  }

  function Min(a: int, b: int): int {
    if a <= b then a else b
  }

  /** What is left of `r` after removeFromTop(amount). */
  function RemoveFromTop(r: Rect, amount: int): Rect {
    var taken := Min(amount, r.height);
    Rect(r.x, r.y + taken, r.width, r.height - taken)
  }

  /** What is left of `r` after removeFromBottom(amount). */
  function RemoveFromBottom(r: Rect, amount: int): Rect {
    var taken := Min(amount, r.height);
    Rect(r.x, r.y, r.width, r.height - taken)
  }

  /** What is left of `r` after removeFromLeft(amount). */
  function RemoveFromLeft(r: Rect, amount: int): Rect {
    var taken := Min(amount, r.width);
    Rect(r.x + taken, r.y, r.width - taken, r.height)
  }

  /** What is left of `r` after removeFromRight(amount). */
  function RemoveFromRight(r: Rect, amount: int): Rect {
    var taken := Min(amount, r.width);
    Rect(r.x, r.y, r.width - taken, r.height)
  }

  /** C++ integer division, which truncates toward zero. */
  function TruncDiv(a: int, b: int): (q: int)
    requires b > 0
    ensures a >= 0 ==> q == a / b
    ensures a < 0 ==> q == -((-a) / b)
  {
    if a >= 0 then a / b else -((-a) / b)
  }

  datatype Point = Point(x: real, y: real)

  /** A polyline, in drawing order. */
  type Path = seq<Point>

  /** juce::jmap: the linear map sending `sourceMin` to `targetMin` and
      `sourceMax` to `targetMax`. */
  function Jmap(v: real, sourceMin: real, sourceMax: real, targetMin: real, targetMax: real): real
    requires sourceMin != sourceMax
  {
    targetMin + (targetMax - targetMin) * (v - sourceMin) / (sourceMax - sourceMin)
  }
}

=== FILE: grid.dfy ===
/** The response display's scales: the frequency and gain grid drawn as its
    background, the axis label texts, and the linear map from decibels to a
    vertical pixel position that the grid and the response curve share. */
module Grid {
  import opened Text
  import opened Geometry

  /** The frequencies that get a vertical grid line, in Hz. */
  const GridFrequencies: seq<nat> := [20, 50, 100, 200, 500, 1000, 2000, 5000, 10000, 20000]

  /** The gains that get a horizontal grid line, in dB. */
  const GridGains: seq<int> := [-24, -12, 0, 12, 24]

  /** The decibel range the display spans, bottom to top. */
  const MinDisplayDb: real := -24.0
  const MaxDisplayDb: real := 24.0

  /** The label of a frequency grid line: kilohertz from 1000 Hz up, hertz
      below. */
  function FrequencyLabel(f: nat): (s: string)
    ensures |s| >= 3
    ensures s[|s| - 2..] == "Hz"
    ensures s[|s| - 3] == 'k' <==> f >= 1000
  {
    if f >= 1000 then ThousandthsToDecimal(f) + "kHz"
    else
      var digits := NatToDecimal(f);
      assert IsDigit(digits[|digits| - 1]);
      digits + "Hz"
  }

  /** The label of a gain grid line: a '+' in front of positive gains only;
      negative gains carry their own '-'. */
  function GainLabel(g: int): (s: string)
    ensures |s| > 0
    ensures s[0] == '+' <==> g > 0
    ensures s[0] == '-' <==> g < 0
  {
    (if g > 0 then "+" else "") + IntToDecimal(g)
  }

  /** The analyzer's label on the same grid line: the line's gain less 24. */
  function AnalyzerLabel(g: int): (s: string)
    ensures |s| > 0
    ensures s[0] == '-' <==> g < 24
  {
    IntToDecimal(g - 24)
  }

  /** The digits of a label, without its sign. */
  function Unsigned(s: string): string
    requires |s| > 0
  {
    if s[0] == '+' || s[0] == '-' then s[1..] else s
  }

  /** A frequency label reads back as its frequency: the hertz number below
      1000 Hz, the kilohertz number for whole kilohertz. */
  lemma FrequencyLabelReadsBack(f: nat)
    ensures var s := FrequencyLabel(f);
      f < 1000 ==> (forall i :: 0 <= i < |s| - 2 ==> IsDigit(s[i])) && DecimalValue(s[..|s| - 2]) == f
    ensures var s := FrequencyLabel(f);
      f % 1000 == 0 && f >= 1000 ==>
        (forall i :: 0 <= i < |s| - 3 ==> IsDigit(s[i])) && DecimalValue(s[..|s| - 3]) * 1000 == f
  {
    var s := FrequencyLabel(f);
    if f < 1000 {
      assert s[..|s| - 2] == NatToDecimal(f);
      DecimalRoundTrip(f);
    } else if f % 1000 == 0 {
      assert s[..|s| - 3] == NatToDecimal(f / 1000);
      DecimalRoundTrip(f / 1000);
    }
  }

  /** Stripping the sign of a signed decimal leaves its digits. */
  lemma UnsignedDigits(sign: string, n: nat)
    requires sign == "" || sign == "+" || sign == "-"
    ensures Unsigned(sign + NatToDecimal(n)) == NatToDecimal(n)
  {
    var digits := NatToDecimal(n);
    assert IsDigit(digits[0]);
    if sign != "" {
      assert (sign + digits)[1..] == digits;
    }
  }

  /** A gain label reads back as its gain: the sign is given by the first
      character, the size by the digits after it. */
  lemma GainLabelReadsBack(g: int)
    ensures var s := Unsigned(GainLabel(g));
      (forall i :: 0 <= i < |s| ==> IsDigit(s[i])) && DecimalValue(s) == if g < 0 then -g else g
  {
    var size: nat := if g < 0 then -g else g;
    var sign := if g < 0 then "-" else if g > 0 then "+" else "";
    assert GainLabel(g) == sign + NatToDecimal(size);
    UnsignedDigits(sign, size);
    DecimalRoundTrip(size);
  }

  /** An analyzer label reads back as the line's gain less 24. */
  lemma AnalyzerLabelReadsBack(g: int)
    ensures var s := Unsigned(AnalyzerLabel(g));
      (forall i :: 0 <= i < |s| ==> IsDigit(s[i])) && DecimalValue(s) == if g < 24 then 24 - g else g - 24
  {
    var size: nat := if g < 24 then 24 - g else g - 24;
    var sign := if g < 24 then "-" else "";
    assert AnalyzerLabel(g) == sign + NatToDecimal(size);
    UnsignedDigits(sign, size);
    DecimalRoundTrip(size);
  }

  /** The label texts of the frequency grid, line by line. */
  lemma FrequencyGridLabels()
    ensures seq(|GridFrequencies|, i requires 0 <= i < |GridFrequencies| => FrequencyLabel(GridFrequencies[i])) ==
      ["20Hz", "50Hz", "100Hz", "200Hz", "500Hz", "1kHz", "2kHz", "5kHz", "10kHz", "20kHz"]
  {
    HertzLabels();
    KilohertzLabels();
  }

  lemma HertzLabels()
    ensures FrequencyLabel(20) == "20Hz" && FrequencyLabel(50) == "50Hz"
    ensures FrequencyLabel(100) == "100Hz" && FrequencyLabel(200) == "200Hz" && FrequencyLabel(500) == "500Hz"
  {
    assert NatToDecimal(20) == "20" && NatToDecimal(50) == "50";
    assert NatToDecimal(100) == "100" && NatToDecimal(200) == "200" && NatToDecimal(500) == "500";
  }

  lemma KilohertzLabels()
    ensures FrequencyLabel(1000) == "1kHz" && FrequencyLabel(2000) == "2kHz" && FrequencyLabel(5000) == "5kHz"
    ensures FrequencyLabel(10000) == "10kHz" && FrequencyLabel(20000) == "20kHz"
  {
    assert NatToDecimal(10) == "10" && NatToDecimal(20) == "20";
  }

  /** The label texts of the gain grid, line by line, for the response
      curve's scale and for the analyzer's. */
  lemma GainGridLabels()
    ensures seq(|GridGains|, i requires 0 <= i < |GridGains| => GainLabel(GridGains[i])) ==
      ["-24", "-12", "0", "+12", "+24"]
    ensures seq(|GridGains|, i requires 0 <= i < |GridGains| => AnalyzerLabel(GridGains[i])) ==
      ["-48", "-36", "-24", "-12", "0"]
  {
    assert NatToDecimal(12) == "12" && NatToDecimal(24) == "24";
    assert NatToDecimal(36) == "36" && NatToDecimal(48) == "48";
    assert GainLabel(-24) == "-24" && GainLabel(-12) == "-12" && GainLabel(0) == "0";
    assert GainLabel(12) == "+12" && GainLabel(24) == "+24";
    assert AnalyzerLabel(-24) == "-48" && AnalyzerLabel(-12) == "-36" && AnalyzerLabel(0) == "-24";
    assert AnalyzerLabel(12) == "-12" && AnalyzerLabel(24) == "0";
  }

  /** Where the grid line of frequency `f` is drawn: the area's left edge
      plus the width times the frequency's position on the logarithmic
      scale, `position(f)`.  A position within [0, 1] puts the line within
      the area. */
  function FrequencyLineX(area: Rect, f: nat, position: real -> real): (x: real)
    ensures area.width >= 0 && 0.0 <= position(f as real) <= 1.0 ==>
      area.x as real <= x <= area.Right() as real
  {
    var p := position(f as real);
    ScaleWithin(area.width as real, p);
    area.x as real + area.width as real * p
  }

  /** A non-negative width scaled by a fraction in [0, 1] stays within
      [0, width]. */
  lemma ScaleWithin(w: real, p: real)
    ensures w >= 0.0 && 0.0 <= p <= 1.0 ==> 0.0 <= w * p <= w
  {
    if w >= 0.0 && 0.0 <= p <= 1.0 {
      assert w * p <= w * 1.0;
    }
  }

  /** The linear map from a gain in dB to a vertical position in `area`:
      -24 dB at the bottom edge and +24 dB at the top edge. */
  function MapGainToY(db: real, area: Rect): (y: real)
    ensures db == MinDisplayDb ==> y == area.Bottom() as real
    ensures db == MaxDisplayDb ==> y == area.y as real
  {
    Jmap(db, MinDisplayDb, MaxDisplayDb, area.Bottom() as real, area.y as real)
  }

  /** Each dB moves the point up by a 48th of the area's height; a higher
      gain is drawn strictly higher whenever the area has height. */
  lemma MapGainToYIsLinear(d1: real, d2: real, area: Rect)
    ensures MapGainToY(d2, area) - MapGainToY(d1, area) == -(d2 - d1) * area.height as real / 48.0
    ensures area.height > 0 && d1 < d2 ==> MapGainToY(d2, area) < MapGainToY(d1, area)
  {
  }

  /** The 0 dB line sits halfway between the top and the bottom edge. */
  lemma ZeroDbIsCentred(area: Rect)
    ensures MapGainToY(0.0, area) == (area.y as real + area.Bottom() as real) / 2.0
  {
  }
}

=== FILE: parameters.dfy ===
/** The processor's parameter surface: the static layout built by
    `createParameterLayout`, the raw values the parameter store holds, and
    `getChainSettings`, which turns those raw values into one `ChainSettings`
    snapshot. */
module Parameters {
  import opened Text

  const LowCutFreq := "LowCut Freq"
  const HighCutFreq := "HighCut Freq"
  const PeakFreq := "Peak Freq"
  const PeakGain := "Peak Gain"
  const PeakQuality := "Peak Quality"
  const LowCutSlope := "LowCut Slope"
  const HighCutSlope := "HighCut Slope"
  const LowCutBypassed := "LowCut Bypassed"
  const PeakBypassed := "Peak Bypassed"
  const HighCutBypassed := "HighCut Bypassed"
  const AnalyzerEnabled := "Analyzer Enabled"

  /** What kind of control a parameter is, with its range and default. */
  datatype ParamKind =
    | FloatParam(min: real, max: real, interval: real, skew: real, defaultValue: real)
    | ChoiceParam(choices: seq<string>, defaultIndex: nat)
    | BoolParam(defaultOn: bool)

  /** One entry of the layout: the parameter ID (name and version), the
      display name and the kind. */
  datatype ParamSpec = ParamSpec(id: string, version: nat, name: string, kind: ParamKind)

  /** Label of slope choice `i`: the steepness 12 + 12i, then " db/Octave". */
  function SlopeChoiceLabel(i: nat): string {
    NatToDecimal(12 + i * 12) + " db/Octave"
  }

  function SlopeChoices(): seq<string> {
    [SlopeChoiceLabel(0), SlopeChoiceLabel(1), SlopeChoiceLabel(2), SlopeChoiceLabel(3)]
  }

  /** The label-building loop of createParameterLayout. */
  method BuildSlopeChoices() returns (choices: seq<string>)
    ensures choices == SlopeChoices()
  {
    choices := [];
    for i := 0 to 4
      invariant |choices| == i
      invariant forall k :: 0 <= k < i ==> choices[k] == SlopeChoiceLabel(k)
    {
      var str := NatToDecimal(12 + i * 12);
      str := str + " db/Octave";
      choices := choices + [str];
    }
  }

  /** The four slope choices read 12, 24, 36 and 48 dB per octave. */
  lemma SlopeChoiceTexts()
    ensures SlopeChoices() == ["12 db/Octave", "24 db/Octave", "36 db/Octave", "48 db/Octave"]
  {
    assert NatToDecimal(12) == "12";
    assert NatToDecimal(24) == "24";
    assert NatToDecimal(36) == "36";
    assert NatToDecimal(48) == "48";
    assert SlopeChoiceLabel(0) == "12 db/Octave";
    assert SlopeChoiceLabel(1) == "24 db/Octave";
    assert SlopeChoiceLabel(2) == "36 db/Octave";
    assert SlopeChoiceLabel(3) == "48 db/Octave";
  }

  /** The number in slope label `i` is 12 (i + 1), whatever `i` is. */
  lemma SlopeChoiceNumber(i: nat)
    ensures SlopeChoiceLabel(i) == NatToDecimal(12 * (i + 1)) + " db/Octave"
    ensures DecimalValue(NatToDecimal(12 * (i + 1))) == 12 * (i + 1)
  {
    DecimalRoundTrip(12 * (i + 1));
  }

  function FrequencyKind(defaultValue: real): ParamKind {
    FloatParam(20.0, 20000.0, 1.0, 0.25, defaultValue)
  }

  /** The layout, given the slope choice labels. */
  function Layout(slopes: seq<string>): seq<ParamSpec> {
    [ ParamSpec(LowCutFreq, 1, LowCutFreq, FrequencyKind(20.0)),
      ParamSpec(HighCutFreq, 1, HighCutFreq, FrequencyKind(20000.0)),
      ParamSpec(PeakFreq, 1, PeakFreq, FrequencyKind(750.0)),
      ParamSpec(PeakGain, 1, PeakGain, FloatParam(-24.0, 24.0, 0.5, 1.0, 0.0)),
      ParamSpec(PeakQuality, 1, PeakQuality, FloatParam(0.1, 10.0, 0.05, 1.0, 1.0)),
      ParamSpec(LowCutSlope, 1, LowCutSlope, ChoiceParam(slopes, 0)),
      ParamSpec(HighCutSlope, 1, HighCutSlope, ChoiceParam(slopes, 0)),
      ParamSpec(LowCutBypassed, 1, LowCutBypassed, BoolParam(false)),
      ParamSpec(PeakBypassed, 1, PeakBypassed, BoolParam(false)),
      ParamSpec(HighCutBypassed, 1, HighCutBypassed, BoolParam(false)),
      ParamSpec(AnalyzerEnabled, 1, AnalyzerEnabled, BoolParam(true)) ]
  }

  function ParameterLayout(): seq<ParamSpec> {
    Layout(SlopeChoices())
  }

  method CreateParameterLayout() returns (layout: seq<ParamSpec>)
    ensures layout == ParameterLayout()
  {
    var slopes := BuildSlopeChoices();
    layout := Layout(slopes);
  }

  /** No two parameters share an ID. */
  lemma LayoutIdsDistinct()
    ensures |ParameterLayout()| == 11
    ensures forall i, j :: 0 <= i < j < |ParameterLayout()| ==>
      ParameterLayout()[i].id != ParameterLayout()[j].id
  {
  }

  /** Raw values of the parameter store, by parameter ID.  A raw value is the
      parameter's value in its own units: Hz, dB, a choice index, or 0/1 for
      a flag. */
  type Store = map<string, real>

  predicate InRange(kind: ParamKind, v: real) {
    match kind
    case FloatParam(lo, hi, _, _, _) => lo <= v <= hi
    case ChoiceParam(choices, _) => v == v.Floor as real && 0 <= v.Floor < |choices|
    case BoolParam(_) => v == 0.0 || v == 1.0
  }

  /** Every parameter of the layout has a raw value within its range. */
  predicate Conforms(layout: seq<ParamSpec>, store: Store) {
    forall i :: 0 <= i < |layout| ==> layout[i].id in store && InRange(layout[i].kind, store[layout[i].id])
  }

  function DefaultRaw(kind: ParamKind): real {
    match kind
    case FloatParam(_, _, _, _, d) => d
    case ChoiceParam(_, d) => d as real
    case BoolParam(d) => if d then 1.0 else 0.0
  }

  /** The store as the layout's defaults leave it. */
  function DefaultStore(): Store {
    map[LowCutFreq := 20.0, HighCutFreq := 20000.0, PeakFreq := 750.0,
        PeakGain := 0.0, PeakQuality := 1.0, LowCutSlope := 0.0, HighCutSlope := 0.0,
        LowCutBypassed := 0.0, PeakBypassed := 0.0, HighCutBypassed := 0.0,
        AnalyzerEnabled := 1.0]
  }

  /** The default store holds exactly the default of every layout entry, and
      those defaults are within range. */
  lemma DefaultStoreFollowsLayout()
    ensures forall i :: 0 <= i < |ParameterLayout()| ==>
      ParameterLayout()[i].id in DefaultStore() &&
      DefaultStore()[ParameterLayout()[i].id] == DefaultRaw(ParameterLayout()[i].kind)
    ensures Conforms(ParameterLayout(), DefaultStore())
  {
  }

  /** Steepness of a cut filter; `Slope12` is one second-order section and
      each step adds one more. */
  datatype Slope = Slope12 | Slope24 | Slope36 | Slope48 {
    function Index(): nat {
      match this
      case Slope12 => 0
      case Slope24 => 1
      case Slope36 => 2
      case Slope48 => 3
    }
  }

  /** `static_cast<Slope>` of a raw choice value: the value truncated toward
      zero, taken as the enumerator with that index. */
  function SlopeFromRaw(raw: real): (s: Slope)
    requires 0.0 <= raw < 4.0
    ensures s.Index() == raw.Floor
  {
    var k := raw.Floor;
    if k == 0 then Slope12 else if k == 1 then Slope24 else if k == 2 then Slope36 else Slope48
  }

  /** One snapshot of the control values the filters are built from. */
  datatype ChainSettings = ChainSettings(
    lowCutFreq: real, highCutFreq: real, peakFreq: real,
    peakGainInDecibels: real, peakQuality: real,
    lowCutSlope: Slope, highCutSlope: Slope,
    lowCutBypassed: bool, peakBypassed: bool, highCutBypassed: bool)

  /** What getChainSettings reads: the ten chain parameters are present, and
      the slope values are within the enumeration. */
  predicate HasChainParameters(store: Store) {
    && LowCutFreq in store && HighCutFreq in store && PeakFreq in store
    && PeakGain in store && PeakQuality in store
    && LowCutSlope in store && HighCutSlope in store
    && LowCutBypassed in store && PeakBypassed in store && HighCutBypassed in store
    && 0.0 <= store[LowCutSlope] < 4.0 && 0.0 <= store[HighCutSlope] < 4.0
  }

  /** A flag stored as a float is on when it is above one half. */
  predicate FlagOn(raw: real) {
    raw > 0.5
  }

  function GetChainSettings(store: Store): (s: ChainSettings)
    requires HasChainParameters(store)
    ensures s.lowCutFreq == store[LowCutFreq] && s.highCutFreq == store[HighCutFreq]
    ensures s.peakFreq == store[PeakFreq] && s.peakGainInDecibels == store[PeakGain]
    ensures s.peakQuality == store[PeakQuality]
    ensures s.lowCutSlope.Index() == store[LowCutSlope].Floor
    ensures s.highCutSlope.Index() == store[HighCutSlope].Floor
    ensures s.lowCutBypassed <==> store[LowCutBypassed] > 0.5
    ensures s.peakBypassed <==> store[PeakBypassed] > 0.5
    ensures s.highCutBypassed <==> store[HighCutBypassed] > 0.5
  {
    ChainSettings(
      store[LowCutFreq], store[HighCutFreq], store[PeakFreq],
      store[PeakGain], store[PeakQuality],
      SlopeFromRaw(store[LowCutSlope]), SlopeFromRaw(store[HighCutSlope]),
      FlagOn(store[LowCutBypassed]), FlagOn(store[PeakBypassed]), FlagOn(store[HighCutBypassed]))
  }

  /** A store that conforms to the layout has what getChainSettings reads. */
  lemma ConformingStoreHasChainParameters(store: Store)
    requires Conforms(ParameterLayout(), store)
    ensures HasChainParameters(store)
  {
    var layout := ParameterLayout();
    assert layout[0].id in store && layout[1].id in store && layout[2].id in store;
    assert layout[3].id in store && layout[4].id in store;
    assert layout[7].id in store && layout[8].id in store && layout[9].id in store;
    assert layout[5].id == LowCutSlope && InRange(layout[5].kind, store[LowCutSlope]);
    assert layout[6].id == HighCutSlope && InRange(layout[6].kind, store[HighCutSlope]);
  }

  /** Settings read from a conforming store lie within the parameter ranges:
      frequencies in [20, 20000] Hz, gain in [-24, 24] dB, quality in
      [0.1, 10], and each flag is exactly its stored 0/1 value. */
  lemma SettingsWithinRanges(store: Store)
    requires Conforms(ParameterLayout(), store)
    ensures HasChainParameters(store)
    ensures var s := GetChainSettings(store);
      && 20.0 <= s.lowCutFreq <= 20000.0
      && 20.0 <= s.highCutFreq <= 20000.0
      && 20.0 <= s.peakFreq <= 20000.0
      && -24.0 <= s.peakGainInDecibels <= 24.0
      && 0.1 <= s.peakQuality <= 10.0
      && (s.lowCutBypassed <==> store[LowCutBypassed] == 1.0)
      && (s.peakBypassed <==> store[PeakBypassed] == 1.0)
      && (s.highCutBypassed <==> store[HighCutBypassed] == 1.0)
  {
    ConformingStoreHasChainParameters(store);
    var layout := ParameterLayout();
    assert InRange(layout[0].kind, store[layout[0].id]);
    assert InRange(layout[1].kind, store[layout[1].id]);
    assert InRange(layout[2].kind, store[layout[2].id]);
    assert InRange(layout[3].kind, store[layout[3].id]);
    assert InRange(layout[4].kind, store[layout[4].id]);
    assert InRange(layout[7].kind, store[layout[7].id]);
    assert InRange(layout[8].kind, store[layout[8].id]);
    assert InRange(layout[9].kind, store[layout[9].id]);
  }

  /** With every parameter at its default, the chain is: low cut at 20 Hz,
      high cut at 20 kHz, peak at 750 Hz with 0 dB gain and quality 1, both
      slopes 12 dB/octave, nothing bypassed; the analyzer is enabled. */
  lemma DefaultChainSettings()
    ensures HasChainParameters(DefaultStore())
    ensures GetChainSettings(DefaultStore()) ==
      ChainSettings(20.0, 20000.0, 750.0, 0.0, 1.0, Slope12, Slope12, false, false, false)
    ensures FlagOn(DefaultStore()[AnalyzerEnabled])
  {
  }
}

=== FILE: processor.dfy ===
/** The audio processor's control plane: which bus layouts it accepts, how a
    block is routed through the two mono chains, how both chains are kept in
    step with the parameter store, and the guarded state restore. */
module Processor {
  import opened Wrappers
  import opened Parameters
  import opened Dsp

  datatype ChannelType = Left | Right | Centre | OtherChannel(code: nat)

  /** A set of speaker channels: which channels it holds, in no order. */
  datatype ChannelSet = ChannelSet(channels: set<ChannelType>) {
    function Size(): nat {
      |channels|
    }
  }

  const Mono := ChannelSet({Centre})
  const Stereo := ChannelSet({Left, Right})

  datatype BusesLayout = BusesLayout(mainInput: ChannelSet, mainOutput: ChannelSet)

  /** The kind of plugin the build produces (JucePlugin_IsSynth,
      JucePlugin_IsMidiEffect). */
  datatype PluginKind = AudioEffect | Synth | MidiEffect

  /** isBusesLayoutSupported.  A MIDI effect takes any layout.  Otherwise the
      main output must be mono or stereo, and, unless the plugin is a synth,
      the main input must be the same set as the main output. */
  function IsBusesLayoutSupported(kind: PluginKind, layouts: BusesLayout): (ok: bool)
    ensures kind == MidiEffect ==> ok
    ensures kind == Synth ==> (ok <==> layouts.mainOutput in {Mono, Stereo})
    ensures kind == AudioEffect ==>
      (ok <==> layouts.mainOutput in {Mono, Stereo} && layouts.mainInput == layouts.mainOutput)
  {
    if kind == MidiEffect then true
    else if layouts.mainOutput != Mono && layouts.mainOutput != Stereo then false
    else if kind != Synth && layouts.mainOutput != layouts.mainInput then false
    else true
  }

  /** An audio effect accepts exactly two layouts, mono-to-mono and
      stereo-to-stereo: input and output then have the same one or two
      channels. */
  lemma SupportedEffectLayouts(layouts: BusesLayout)
    ensures IsBusesLayoutSupported(AudioEffect, layouts) <==>
      layouts == BusesLayout(Mono, Mono) || layouts == BusesLayout(Stereo, Stereo)
    ensures IsBusesLayoutSupported(AudioEffect, layouts) ==>
      layouts.mainInput.Size() == layouts.mainOutput.Size() && 1 <= layouts.mainOutput.Size() <= 2
  {
  }

  /** The number of channels in the buffer the host hands to processBlock
      for a layout: enough for every input and every output channel. */
  function BufferChannels(layouts: BusesLayout): (n: nat)
    ensures n >= layouts.mainInput.Size() && n >= layouts.mainOutput.Size()
    ensures n == layouts.mainInput.Size() || n == layouts.mainOutput.Size()
  {
    if layouts.mainInput.Size() >= layouts.mainOutput.Size() then layouts.mainInput.Size() else layouts.mainOutput.Size()
  }

  /** The mono layout is accepted, yet its buffer has no channel 1 for
      processBlock to hand to leftChain. */
  lemma MonoLayoutHasNoChannelOne()
    ensures IsBusesLayoutSupported(AudioEffect, BusesLayout(Mono, Mono))
    ensures BufferChannels(BusesLayout(Mono, Mono)) == 1
  {
  }

  /** Every layout an audio effect accepts gives a buffer with one or two
      channels, so it always has a channel 0. */
  lemma SupportedLayoutsHaveChannelZero(layouts: BusesLayout)
    requires IsBusesLayoutSupported(AudioEffect, layouts)
    ensures 1 <= BufferChannels(layouts) <= 2
    ensures BufferChannels(layouts) == 2 <==> layouts == BusesLayout(Stereo, Stereo)
  {
    SupportedEffectLayouts(layouts);
  }

  function Silence(n: nat): (s: seq<real>)
    ensures |s| == n && forall i :: 0 <= i < n ==> s[i] == 0.0
  {
    seq(n, _ => 0.0)
  }

  /** The channels of a buffer after the output channels that carry no input
      (indices in [numInputs, numOutputs)) are silenced. */
  function ClearedChannels(channels: seq<seq<real>>, numInputs: nat, numOutputs: nat): (r: seq<seq<real>>)
    ensures |r| == |channels|
  {
    seq(|channels|, c requires 0 <= c < |channels| =>
      if numInputs <= c < numOutputs then Silence(|channels[c]|) else channels[c])
  }

  /** The clearing loop at the start of processBlock: every channel with an
      index in [numInputs, numOutputs) becomes silence of the same length;
      every other channel is left as it was. */
  method ClearExtraOutputChannels(buffer: array<seq<real>>, numInputs: nat, numOutputs: nat)
    requires numOutputs <= buffer.Length
    modifies buffer
    ensures forall c :: 0 <= c < buffer.Length ==>
      buffer[c] == if numInputs <= c < numOutputs then Silence(|old(buffer[c])|) else old(buffer[c])
    ensures buffer[..] == ClearedChannels(old(buffer[..]), numInputs, numOutputs)
  {
    var i := numInputs;
    while i < numOutputs
      invariant forall c :: 0 <= c < buffer.Length ==>
        buffer[c] == if numInputs <= c < i && c < numOutputs then Silence(|old(buffer[c])|) else old(buffer[c])
    {
      buffer[i] := Silence(|buffer[i]|);
      i := i + 1;
    }
  }

  /** The processor: the parameter store, the host's sample rate and channel
      counts, and the two mono chains.  leftChain filters channel 1 and
      rightChain channel 0. */
  class AudioProcessor {
    var store: Store
    var sampleRate: real
    var totalNumInputChannels: nat
    var totalNumOutputChannels: nat
    const leftChain: MonoChain
    const rightChain: MonoChain
    /** The block size each channel FIFO was last prepared with. */
    var fifoBlockSize: nat
    /** The buffers handed to the left and right channel FIFOs, oldest first. */
    ghost var leftFifoInput: seq<seq<seq<real>>>
    ghost var rightFifoInput: seq<seq<seq<real>>>

    ghost predicate Valid()
      reads this
    {
      && leftChain != rightChain
      && leftChain.peak != rightChain.peak
      && Conforms(ParameterLayout(), store)
      && HasChainParameters(store)
    }

    /** Both chains have the same bypass flags and the same coefficients. */
    ghost predicate Symmetric()
      reads this, leftChain, rightChain, leftChain.peak, rightChain.peak
    {
      leftChain.Config() == rightChain.Config()
    }

    /** A processor whose parameters are at their defaults and whose two
        chains start from the same configuration. */
    constructor (sampleRate: real, numInputs: nat, numOutputs: nat, initial: ChainConfig, memory: FilterState)
      ensures Valid() && Symmetric()
      ensures store == DefaultStore()
      ensures this.sampleRate == sampleRate && totalNumInputChannels == numInputs && totalNumOutputChannels == numOutputs
      ensures fifoBlockSize == 0
      ensures fresh(leftChain) && fresh(rightChain) && fresh(leftChain.peak) && fresh(rightChain.peak)
      ensures leftFifoInput == [] && rightFifoInput == []
    {
      store := DefaultStore();
      this.sampleRate := sampleRate;
      totalNumInputChannels, totalNumOutputChannels := numInputs, numOutputs;
      leftChain := new MonoChain(initial, memory);
      rightChain := new MonoChain(initial, memory);
      fifoBlockSize := 0;
      leftFifoInput, rightFifoInput := [], [];
      DefaultStoreFollowsLayout();
      DefaultChainSettings();
    }

    /** updatePeakFilter: both chains get the settings' peak bypass flag and
        the contents of one freshly designed peak coefficient object;
        nothing else changes. */
    method UpdatePeakFilter(s: ChainSettings, lib: DspLibrary)
      requires Valid()
      modifies leftChain, rightChain, leftChain.peak, rightChain.peak
      ensures leftChain.Config() == old(leftChain.Config()).(peakBypassed := s.peakBypassed, peak := MakePeakFilter(lib, s, sampleRate))
      ensures rightChain.Config() == old(rightChain.Config()).(peakBypassed := s.peakBypassed, peak := MakePeakFilter(lib, s, sampleRate))
      ensures leftChain.state == old(leftChain.state) && rightChain.state == old(rightChain.state)
    {
      var peakCoefficients := new Coefficients(MakePeakFilter(lib, s, sampleRate));
      leftChain.peakBypassed := s.peakBypassed;
      rightChain.peakBypassed := s.peakBypassed;
      UpdateCoefficients(leftChain.peak, peakCoefficients);
      UpdateCoefficients(rightChain.peak, peakCoefficients);
    }

    /** updateLowCutFilters: both chains get the settings' low-cut bypass flag,
        and each low-cut band is loaded with one low-cut design for the
        settings' slope. */
    method UpdateLowCutFilters(s: ChainSettings, lib: DspLibrary)
      requires Valid()
      modifies leftChain, rightChain
      ensures leftChain.Config() == old(leftChain.Config()).(lowCutBypassed := s.lowCutBypassed,
        lowCut := lib.updateCutFilter(old(leftChain.lowCut), lib.makeLowCutFilter(s, sampleRate), s.lowCutSlope))
      ensures rightChain.Config() == old(rightChain.Config()).(lowCutBypassed := s.lowCutBypassed,
        lowCut := lib.updateCutFilter(old(rightChain.lowCut), lib.makeLowCutFilter(s, sampleRate), s.lowCutSlope))
      ensures leftChain.state == old(leftChain.state) && rightChain.state == old(rightChain.state)
    {
      var cutCoefficients := lib.makeLowCutFilter(s, sampleRate);
      leftChain.lowCutBypassed := s.lowCutBypassed;
      rightChain.lowCutBypassed := s.lowCutBypassed;
      leftChain.lowCut := lib.updateCutFilter(leftChain.lowCut, cutCoefficients, s.lowCutSlope);
      rightChain.lowCut := lib.updateCutFilter(rightChain.lowCut, cutCoefficients, s.lowCutSlope);
    }

    /** updateHighCutFilters: as updateLowCutFilters, for the high-cut band. */
    method UpdateHighCutFilters(s: ChainSettings, lib: DspLibrary)
      requires Valid()
      modifies leftChain, rightChain
      ensures leftChain.Config() == old(leftChain.Config()).(highCutBypassed := s.highCutBypassed,
        highCut := lib.updateCutFilter(old(leftChain.highCut), lib.makeHighCutFilter(s, sampleRate), s.highCutSlope))
      ensures rightChain.Config() == old(rightChain.Config()).(highCutBypassed := s.highCutBypassed,
        highCut := lib.updateCutFilter(old(rightChain.highCut), lib.makeHighCutFilter(s, sampleRate), s.highCutSlope))
      ensures leftChain.state == old(leftChain.state) && rightChain.state == old(rightChain.state)
    {
      var cutCoefficients := lib.makeHighCutFilter(s, sampleRate);
      leftChain.highCutBypassed := s.highCutBypassed;
      rightChain.highCutBypassed := s.highCutBypassed;
      leftChain.highCut := lib.updateCutFilter(leftChain.highCut, cutCoefficients, s.highCutSlope);
      rightChain.highCut := lib.updateCutFilter(rightChain.highCut, cutCoefficients, s.highCutSlope);
    }

    /** updateFilters: one settings snapshot is read from the store, and the
        low-cut, peak and high-cut bands of both chains are updated from it.
        Chains whose cut bands agreed before agree entirely afterwards. */
    method UpdateFilters(lib: DspLibrary)
      requires Valid()
      modifies leftChain, rightChain, leftChain.peak, rightChain.peak
      ensures leftChain.Config() == Updated(old(leftChain.Config()), GetChainSettings(store), sampleRate, lib)
      ensures rightChain.Config() == Updated(old(rightChain.Config()), GetChainSettings(store), sampleRate, lib)
      ensures leftChain.state == old(leftChain.state) && rightChain.state == old(rightChain.state)
      ensures old(leftChain.lowCut == rightChain.lowCut && leftChain.highCut == rightChain.highCut) ==> Symmetric()
    {
      var chainSettings := GetChainSettings(store);
      UpdateLowCutFilters(chainSettings, lib);
      UpdatePeakFilter(chainSettings, lib);
      UpdateHighCutFilters(chainSettings, lib);
      if old(leftChain.lowCut == rightChain.lowCut && leftChain.highCut == rightChain.highCut) {
        UpdatedDependsOnlyOnCutBands(old(leftChain.Config()), old(rightChain.Config()), chainSettings, sampleRate, lib);
      }
    }

    /** prepareToPlay: the host's rate becomes the processor's sample rate,
        both chains are prepared for one channel at that rate and the block
        size, the filters are redesigned at that rate, and both channel FIFOs
        are prepared for blocks of that size. */
    method PrepareToPlay(rate: real, samplesPerBlock: nat, lib: DspLibrary)
      requires Valid()
      modifies this, leftChain, rightChain, leftChain.peak, rightChain.peak
      ensures Valid() && store == old(store) && sampleRate == rate
      ensures leftChain.state == lib.prepare(ProcessSpec(rate, samplesPerBlock, 1))
      ensures rightChain.state == lib.prepare(ProcessSpec(rate, samplesPerBlock, 1))
      ensures leftChain.Config() == Updated(old(leftChain.Config()), GetChainSettings(store), rate, lib)
      ensures rightChain.Config() == Updated(old(rightChain.Config()), GetChainSettings(store), rate, lib)
      ensures fifoBlockSize == samplesPerBlock
      ensures totalNumInputChannels == old(totalNumInputChannels) && totalNumOutputChannels == old(totalNumOutputChannels)
      ensures old(Symmetric()) ==> Symmetric()
      ensures leftFifoInput == old(leftFifoInput) && rightFifoInput == old(rightFifoInput)
    {
      sampleRate := rate;
      var spec := ProcessSpec(rate, samplesPerBlock, 1);
      leftChain.state := lib.prepare(spec);
      rightChain.state := lib.prepare(spec);
      UpdateFilters(lib);
      fifoBlockSize := samplesPerBlock;
    }

    /** Runs one chain over one channel of the buffer, in place. */
    method FilterChannel(chain: MonoChain, buffer: array<seq<real>>, c: nat, lib: DspLibrary)
      requires c < buffer.Length
      modifies chain, buffer
      ensures (chain.state, buffer[c]) == lib.process(chain.Config(), old(chain.state), old(buffer[c]))
      ensures chain.Config() == old(chain.Config())
      ensures forall k :: 0 <= k < buffer.Length && k != c ==> buffer[k] == old(buffer[k])
    {
      var result := lib.process(chain.Config(), chain.state, buffer[c]);
      chain.state := result.0;
      buffer[c] := result.1;
    }

    /** processBlock as written: silence the output channels that have no
        input, refresh both chains from the store, then filter channel 1 with
        leftChain and channel 0 with rightChain, and hand the buffer to both
        channel FIFOs.  The buffer must have a channel 1. */
    method ProcessBlock(buffer: array<seq<real>>, lib: DspLibrary)
      requires Valid()
      requires 2 <= buffer.Length && totalNumOutputChannels <= buffer.Length
      modifies this, buffer, leftChain, rightChain, leftChain.peak, rightChain.peak
      ensures Valid() && store == old(store) && sampleRate == old(sampleRate)
      ensures leftChain.Config() == Updated(old(leftChain.Config()), GetChainSettings(store), sampleRate, lib)
      ensures rightChain.Config() == Updated(old(rightChain.Config()), GetChainSettings(store), sampleRate, lib)
      ensures var cleared := ClearedChannels(old(buffer[..]), totalNumInputChannels, totalNumOutputChannels);
        && (leftChain.state, buffer[1]) == lib.process(leftChain.Config(), old(leftChain.state), cleared[1])
        && (rightChain.state, buffer[0]) == lib.process(rightChain.Config(), old(rightChain.state), cleared[0])
        && forall c :: 2 <= c < buffer.Length ==> buffer[c] == cleared[c]
      ensures leftFifoInput == old(leftFifoInput) + [buffer[..]]
      ensures totalNumInputChannels == old(totalNumInputChannels) && totalNumOutputChannels == old(totalNumOutputChannels)
      ensures fifoBlockSize == old(fifoBlockSize)
      ensures old(Symmetric()) ==> Symmetric()
      ensures rightFifoInput == old(rightFifoInput) + [buffer[..]]
    {
      ClearExtraOutputChannels(buffer, totalNumInputChannels, totalNumOutputChannels);
      UpdateFilters(lib);
      FilterChannel(leftChain, buffer, 1, lib);
      FilterChannel(rightChain, buffer, 0, lib);
      leftFifoInput := leftFifoInput + [buffer[..]];
      rightFifoInput := rightFifoInput + [buffer[..]];
    }

    /** processBlock for every accepted layout: as processBlock, except that
        leftChain filters channel 1 only when the buffer has one; with a
        single channel, rightChain filters channel 0 and leftChain's memory
        is left as it was. */
    method ProcessBlockAnyLayout(buffer: array<seq<real>>, lib: DspLibrary)
      requires Valid()
      requires 1 <= buffer.Length && totalNumOutputChannels <= buffer.Length
      modifies this, buffer, leftChain, rightChain, leftChain.peak, rightChain.peak
      ensures Valid() && store == old(store) && sampleRate == old(sampleRate)
      ensures leftChain.Config() == Updated(old(leftChain.Config()), GetChainSettings(store), sampleRate, lib)
      ensures rightChain.Config() == Updated(old(rightChain.Config()), GetChainSettings(store), sampleRate, lib)
      ensures var cleared := ClearedChannels(old(buffer[..]), totalNumInputChannels, totalNumOutputChannels);
        && (rightChain.state, buffer[0]) == lib.process(rightChain.Config(), old(rightChain.state), cleared[0])
        && (buffer.Length >= 2 ==>
              (leftChain.state, buffer[1]) == lib.process(leftChain.Config(), old(leftChain.state), cleared[1]))
        && (buffer.Length == 1 ==> leftChain.state == old(leftChain.state))
        && forall c :: 2 <= c < buffer.Length ==> buffer[c] == cleared[c]
      ensures leftFifoInput == old(leftFifoInput) + [buffer[..]]
      ensures totalNumInputChannels == old(totalNumInputChannels) && totalNumOutputChannels == old(totalNumOutputChannels)
      ensures fifoBlockSize == old(fifoBlockSize)
      ensures old(Symmetric()) ==> Symmetric()
      ensures rightFifoInput == old(rightFifoInput) + [buffer[..]]
    {
      ClearExtraOutputChannels(buffer, totalNumInputChannels, totalNumOutputChannels);
      UpdateFilters(lib);
      if buffer.Length >= 2 {
        FilterChannel(leftChain, buffer, 1, lib);
      }
      FilterChannel(rightChain, buffer, 0, lib);
      leftFifoInput := leftFifoInput + [buffer[..]];
      rightFifoInput := rightFifoInput + [buffer[..]];
    }

    /** setStateInformation: a decoded tree that is valid replaces the store
        and the filters are recomputed from it; an invalid one changes
        nothing. */
    method SetStateInformation(tree: Option<Store>, lib: DspLibrary)
      requires Valid()
      requires tree.Some? ==> Conforms(ParameterLayout(), tree.value)
      modifies this, leftChain, rightChain, leftChain.peak, rightChain.peak
      ensures Valid()
      ensures tree.None? ==> unchanged(this, leftChain, rightChain, leftChain.peak, rightChain.peak)
      ensures tree.Some? ==> store == tree.value
      ensures tree.Some? ==>
        && leftChain.Config() == Updated(old(leftChain.Config()), GetChainSettings(store), sampleRate, lib)
        && rightChain.Config() == Updated(old(rightChain.Config()), GetChainSettings(store), sampleRate, lib)
        && leftChain.state == old(leftChain.state) && rightChain.state == old(rightChain.state)
      ensures sampleRate == old(sampleRate)
      ensures leftFifoInput == old(leftFifoInput) && rightFifoInput == old(rightFifoInput)
      ensures totalNumInputChannels == old(totalNumInputChannels) && totalNumOutputChannels == old(totalNumOutputChannels)
      ensures fifoBlockSize == old(fifoBlockSize)
      ensures old(Symmetric()) ==> Symmetric()
    {
      if tree.Some? {
        ConformingStoreHasChainParameters(tree.value);
        store := tree.value;
        UpdateFilters(lib);
      }
    }
  }
}

=== FILE: response_curve.dfy ===
/** The response curve component: the areas it draws into, which filter
    stages multiply into the curve drawn for each pixel column, the curve's
    points, and the refresh cycle that keeps its own copy of the mono chain
    in step with the parameters. */
module ResponseCurve {
  import opened Wrappers
  import opened Geometry
  import opened Grid
  import opened Parameters
  import opened Dsp
  import opened Processor
  import opened Analyzer

  /** getRenderArea: the component's bounds less 12 pixels at the top, 5 at
      the bottom and 20 on each side. */
  function GetRenderArea(bounds: Rect): (r: Rect)
    ensures bounds.width >= 40 && bounds.height >= 17 ==>
      r == Rect(bounds.x + 20, bounds.y + 12, bounds.width - 40, bounds.height - 17)
    ensures bounds.NonNegative() ==> r.NonNegative() && bounds.Encloses(r)
  {
    RemoveFromRight(RemoveFromLeft(RemoveFromBottom(RemoveFromTop(bounds, 12), 5), 20), 20)
  }

  /** getAnalysisArea: the render area less 4 more pixels at the top and at
      the bottom; it keeps the render area's x and width. */
  function GetAnalysisArea(bounds: Rect): (r: Rect)
    ensures bounds.width >= 40 && bounds.height >= 25 ==>
      r == Rect(bounds.x + 20, bounds.y + 16, bounds.width - 40, bounds.height - 25)
    ensures r.x == GetRenderArea(bounds).x && r.width == GetRenderArea(bounds).width
    ensures bounds.NonNegative() ==> r.NonNegative() && GetRenderArea(bounds).Encloses(r)
  {
    RemoveFromBottom(RemoveFromTop(GetRenderArea(bounds), 4), 4)
  }

  type SectionIndex = k: nat | k < 4

  /** A stage whose magnitude can enter the curve, named as paint visits
      them: the peak, then the four low-cut sections, then the four
      high-cut sections. */
  datatype Stage = PeakStage | LowCutStage(k: SectionIndex) | HighCutStage(k: SectionIndex)

  const AllStages: seq<Stage> := [
    PeakStage,
    LowCutStage(0), LowCutStage(1), LowCutStage(2), LowCutStage(3),
    HighCutStage(0), HighCutStage(1), HighCutStage(2), HighCutStage(3)]

  /** A stage contributes when its chain position is not bypassed and, for a
      cut section, the section itself is not bypassed either. */
  predicate Contributes(c: ChainConfig, st: Stage) {
    match st
    case PeakStage => !c.peakBypassed
    case LowCutStage(k) => !c.lowCutBypassed && !c.lowCut.Sections()[k].bypassed
    case HighCutStage(k) => !c.highCutBypassed && !c.highCut.Sections()[k].bypassed
  }

  function StageCoefficients(c: ChainConfig, st: Stage): CoefficientSet {
    match st
    case PeakStage => c.peak
    case LowCutStage(k) => c.lowCut.Sections()[k].coefficients
    case HighCutStage(k) => c.highCut.Sections()[k].coefficients
  }

  function StageMagnitude(c: ChainConfig, st: Stage, freq: real, sampleRate: real, lib: DspLibrary): real {
    lib.magnitudeForFrequency(StageCoefficients(c, st), freq, sampleRate)
  }

  /** A stage that contributes multiplies its magnitude into the gain; any
      other stage leaves the gain as it is. */
  function Visit(c: ChainConfig, gain: real, st: Stage, freq: real, sampleRate: real, lib: DspLibrary): real {
    if Contributes(c, st) then lib.multiply(gain, StageMagnitude(c, st, freq, sampleRate, lib)) else gain
  }

  /** The gain after visiting `stages` in order from a starting gain of 1. */
  function GatedProduct(c: ChainConfig, stages: seq<Stage>, freq: real, sampleRate: real, lib: DspLibrary): real {
    if stages == [] then 1.0
    else Visit(c, GatedProduct(c, stages[..|stages| - 1], freq, sampleRate, lib), stages[|stages| - 1], freq, sampleRate, lib)
  }

  /** The stages that contribute, in the order paint visits them. */
  function ActiveStages(c: ChainConfig, stages: seq<Stage>): (active: seq<Stage>)
    ensures forall st :: st in active <==> st in stages && Contributes(c, st)
    ensures |active| <= |stages|
  {
    if stages == [] then []
    else
      var last := stages[|stages| - 1];
      ActiveStages(c, stages[..|stages| - 1]) + (if Contributes(c, last) then [last] else [])
  }

  /** The product of the magnitudes of the given stages, from a starting
      gain of 1, whether or not they contribute. */
  function MagnitudeProduct(c: ChainConfig, stages: seq<Stage>, freq: real, sampleRate: real, lib: DspLibrary): real {
    if stages == [] then 1.0
    else
      lib.multiply(MagnitudeProduct(c, stages[..|stages| - 1], freq, sampleRate, lib),
        StageMagnitude(c, stages[|stages| - 1], freq, sampleRate, lib))
  }

  /** Bypassed stages leave the product unchanged: the gated product over
      the stages is the plain product over the contributing ones. */
  lemma {:induction false} GatedProductIsActiveProduct(c: ChainConfig, stages: seq<Stage>, freq: real, sampleRate: real, lib: DspLibrary)
    ensures GatedProduct(c, stages, freq, sampleRate, lib) ==
      MagnitudeProduct(c, ActiveStages(c, stages), freq, sampleRate, lib)
    decreases |stages|
  {
    if stages != [] {
      var init, last := stages[..|stages| - 1], stages[|stages| - 1];
      GatedProductIsActiveProduct(c, init, freq, sampleRate, lib);
      var active := ActiveStages(c, init);
      if Contributes(c, last) {
        assert (active + [last])[..|active|] == active;
      } else {
        assert active + [] == active;
      }
    }
  }

  /** With every stage out of the way, the gain stays at 1. */
  lemma {:induction false} NothingContributesIsUnity(c: ChainConfig, stages: seq<Stage>, freq: real, sampleRate: real, lib: DspLibrary)
    requires forall st :: st in stages ==> !Contributes(c, st)
    ensures GatedProduct(c, stages, freq, sampleRate, lib) == 1.0
    decreases |stages|
  {
    if stages != [] {
      assert stages[|stages| - 1] in stages;
      NothingContributesIsUnity(c, stages[..|stages| - 1], freq, sampleRate, lib);
    }
  }

  /** Visiting the four sections of a band, one after the other. */
  lemma GatedProductBand(c: ChainConfig, stages: seq<Stage>, b0: Stage, b1: Stage, b2: Stage, b3: Stage,
                         freq: real, sampleRate: real, lib: DspLibrary)
    ensures var g0, g1 := GatedProduct(c, stages, freq, sampleRate, lib), GatedProduct(c, stages + [b0], freq, sampleRate, lib);
      g1 == Visit(c, g0, b0, freq, sampleRate, lib)
    ensures var g1, g2 := GatedProduct(c, stages + [b0], freq, sampleRate, lib), GatedProduct(c, stages + [b0, b1], freq, sampleRate, lib);
      g2 == Visit(c, g1, b1, freq, sampleRate, lib)
    ensures var g2, g3 := GatedProduct(c, stages + [b0, b1], freq, sampleRate, lib), GatedProduct(c, stages + [b0, b1, b2], freq, sampleRate, lib);
      g3 == Visit(c, g2, b2, freq, sampleRate, lib)
    ensures var g3, g4 := GatedProduct(c, stages + [b0, b1, b2], freq, sampleRate, lib), GatedProduct(c, stages + [b0, b1, b2, b3], freq, sampleRate, lib);
      g4 == Visit(c, g3, b3, freq, sampleRate, lib)
  {
    assert (stages + [b0])[..|stages|] == stages;
    assert (stages + [b0, b1])[..|stages| + 1] == stages + [b0];
    assert (stages + [b0, b1, b2])[..|stages| + 2] == stages + [b0, b1];
    assert (stages + [b0, b1, b2, b3])[..|stages| + 3] == stages + [b0, b1, b2];
  }

  /** The gain of one column of the curve: every stage, gated by its bypass
      flags. */
  function ColumnGain(c: ChainConfig, freq: real, sampleRate: real, lib: DspLibrary): real {
    GatedProduct(c, AllStages, freq, sampleRate, lib)
  }

  /** The column gain visits the nine stages one by one. */
  lemma ColumnGainVisits(c: ChainConfig, freq: real, sampleRate: real, lib: DspLibrary)
    ensures var peak := Visit(c, 1.0, PeakStage, freq, sampleRate, lib);
      var low := Visit(c, Visit(c, Visit(c, Visit(c, peak, LowCutStage(0), freq, sampleRate, lib),
        LowCutStage(1), freq, sampleRate, lib), LowCutStage(2), freq, sampleRate, lib), LowCutStage(3), freq, sampleRate, lib);
      ColumnGain(c, freq, sampleRate, lib) ==
        Visit(c, Visit(c, Visit(c, Visit(c, low, HighCutStage(0), freq, sampleRate, lib),
          HighCutStage(1), freq, sampleRate, lib), HighCutStage(2), freq, sampleRate, lib), HighCutStage(3), freq, sampleRate, lib)
  {
    assert AllStages[..1] == [PeakStage] && AllStages[..1][..0] == [];
    GatedProductBand(c, AllStages[..1], LowCutStage(0), LowCutStage(1), LowCutStage(2), LowCutStage(3), freq, sampleRate, lib);
    assert AllStages[..1] + [LowCutStage(0), LowCutStage(1), LowCutStage(2), LowCutStage(3)] == AllStages[..5];
    GatedProductBand(c, AllStages[..5], HighCutStage(0), HighCutStage(1), HighCutStage(2), HighCutStage(3), freq, sampleRate, lib);
    assert AllStages[..5] + [HighCutStage(0), HighCutStage(1), HighCutStage(2), HighCutStage(3)] == AllStages;
  }

  /** The body of paint's column loop: start from a gain of 1 and multiply
      in the peak unless it is bypassed, then each cut section whose band
      and section are both not bypassed. */
  method ColumnMagnitude(c: ChainConfig, freq: real, sampleRate: real, lib: DspLibrary) returns (mag: real)
    ensures mag == ColumnGain(c, freq, sampleRate, lib)
    ensures mag == MagnitudeProduct(c, ActiveStages(c, AllStages), freq, sampleRate, lib)
  {
    var low, high := c.lowCut, c.highCut;
    mag := 1.0;
    if !c.peakBypassed {
      mag := lib.multiply(mag, lib.magnitudeForFrequency(c.peak, freq, sampleRate));
    }
    ghost var afterPeak := mag;
    assert afterPeak == Visit(c, 1.0, PeakStage, freq, sampleRate, lib);
    ghost var g0, g1, g2, g3 := mag, mag, mag, mag;
    if !c.lowCutBypassed {
      if !low.s0.bypassed {
        mag := lib.multiply(mag, lib.magnitudeForFrequency(low.s0.coefficients, freq, sampleRate));
      }
      g0 := mag;
      if !low.s1.bypassed {
        mag := lib.multiply(mag, lib.magnitudeForFrequency(low.s1.coefficients, freq, sampleRate));
      }
      g1 := mag;
      if !low.s2.bypassed {
        mag := lib.multiply(mag, lib.magnitudeForFrequency(low.s2.coefficients, freq, sampleRate));
      }
      g2 := mag;
      if !low.s3.bypassed {
        mag := lib.multiply(mag, lib.magnitudeForFrequency(low.s3.coefficients, freq, sampleRate));
      }
      g3 := mag;
    }
    assert g0 == Visit(c, afterPeak, LowCutStage(0), freq, sampleRate, lib);
    assert g1 == Visit(c, g0, LowCutStage(1), freq, sampleRate, lib);
    assert g2 == Visit(c, g1, LowCutStage(2), freq, sampleRate, lib);
    assert g3 == Visit(c, g2, LowCutStage(3), freq, sampleRate, lib);
    ghost var afterLow := mag;
    ghost var h0, h1, h2, h3 := mag, mag, mag, mag;
    if !c.highCutBypassed {
      if !high.s0.bypassed {
        mag := lib.multiply(mag, lib.magnitudeForFrequency(high.s0.coefficients, freq, sampleRate));
      }
      h0 := mag;
      if !high.s1.bypassed {
        mag := lib.multiply(mag, lib.magnitudeForFrequency(high.s1.coefficients, freq, sampleRate));
      }
      h1 := mag;
      if !high.s2.bypassed {
        mag := lib.multiply(mag, lib.magnitudeForFrequency(high.s2.coefficients, freq, sampleRate));
      }
      h2 := mag;
      if !high.s3.bypassed {
        mag := lib.multiply(mag, lib.magnitudeForFrequency(high.s3.coefficients, freq, sampleRate));
      }
      h3 := mag;
    }
    assert h0 == Visit(c, afterLow, HighCutStage(0), freq, sampleRate, lib);
    assert h1 == Visit(c, h0, HighCutStage(1), freq, sampleRate, lib);
    assert h2 == Visit(c, h1, HighCutStage(2), freq, sampleRate, lib);
    assert h3 == Visit(c, h2, HighCutStage(3), freq, sampleRate, lib);
    ColumnGainVisits(c, freq, sampleRate, lib);
    GatedProductIsActiveProduct(c, AllStages, freq, sampleRate, lib);
  }

  /** The frequency of pixel column `i` of `w`: the column's fraction of the
      width, mapped onto 20 Hz .. 20 kHz on a logarithmic scale. */
  function ColumnFrequency(i: nat, w: nat, lib: DspLibrary): real
    requires i < w
  {
    lib.mapToLog10(i as real / w as real)
  }

  /** The curve's value at pixel column `i` of `w`, in decibels. */
  function ColumnDb(c: ChainConfig, i: nat, w: nat, sampleRate: real, lib: DspLibrary): real
    requires i < w
  {
    lib.gainToDecibels(ColumnGain(c, ColumnFrequency(i, w, lib), sampleRate, lib))
  }

  /** paint's magnitude loop: one decibel value per pixel column. */
  method ResponseMagnitudes(c: ChainConfig, w: nat, sampleRate: real, lib: DspLibrary) returns (mags: array<real>)
    ensures fresh(mags) && mags.Length == w
    ensures forall i :: 0 <= i < w ==> mags[i] == ColumnDb(c, i, w, sampleRate, lib)
  {
    mags := new real[w];
    for i := 0 to w
      invariant forall k :: 0 <= k < i ==> mags[k] == ColumnDb(c, k, w, sampleRate, lib)
    {
      var mag := ColumnMagnitude(c, ColumnFrequency(i, w, lib), sampleRate, lib);
      mags[i] := lib.gainToDecibels(mag);
    }
  }

  /** The response curve as paint builds it: it starts at the area's left
      edge and has one point per pixel column, at x = area.x + i, at the
      height the column's decibel value maps to. */
  method CurvePath(mags: seq<real>, area: Rect) returns (path: Path)
    requires |mags| > 0
    ensures |path| == |mags|
    ensures path[0].x == area.x as real
    ensures forall i :: 0 <= i < |mags| ==> path[i] == Point((area.x + i) as real, MapGainToY(mags[i], area))
  {
    path := [Point(area.x as real, MapGainToY(mags[0], area))];
    for i := 1 to |mags|
      invariant |path| == i
      invariant forall k :: 0 <= k < i ==> path[k] == Point((area.x + k) as real, MapGainToY(mags[k], area))
    {
      path := path + [Point((area.x + i) as real, MapGainToY(mags[i], area))];
    }
  }

  /** A path moved by (dx, dy). */
  function Translated(p: Path, dx: int, dy: int): (r: Path)
    ensures |r| == |p|
  {
    seq(|p|, i requires 0 <= i < |p| => Point(p[i].x + dx as real, p[i].y + dy as real))
  }

  /** The response curve component.  It listens to every parameter, keeps a
      mono chain of its own for drawing, and owns one path producer per
      channel. */
  class ResponseCurveComponent {
    const audioProcessor: AudioProcessor
    const monoChain: MonoChain
    const leftPathProducer: PathProducer<real>
    const rightPathProducer: PathProducer<real>
    /** The dirty flag: some parameter changed since the chain was last
        brought up to date. */
    var parametersChanges: bool
    var shouldShowFFTAnalysis: bool
    var width: int
    var height: int
    /** How often the mono chain was brought up to date, and how many
        repaints were requested. */
    ghost var chainUpdates: nat
    ghost var repaints: nat

    ghost predicate Valid()
      reads this, leftPathProducer, rightPathProducer
    {
      && leftPathProducer != rightPathProducer
      && leftPathProducer.monoBuffer != rightPathProducer.monoBuffer
      && leftPathProducer.Valid() && rightPathProducer.Valid()
    }

    function Bounds(): Rect
      reads this
    {
      LocalBounds(width, height)
    }

    /** The component starts with its chain brought up to date from the
        processor's parameters and no pending change. */
    constructor (p: AudioProcessor, initial: ChainConfig, memory: FilterState, windowSize: nat,
                 showAnalysis: bool, width: int, height: int, lib: DspLibrary)
      requires p.Valid()
      ensures Valid() && audioProcessor == p
      ensures fresh(monoChain) && fresh(monoChain.peak)
      ensures fresh(leftPathProducer) && fresh(rightPathProducer)
      ensures monoChain.Config() == Updated(initial, GetChainSettings(p.store), p.sampleRate, lib)
      ensures !parametersChanges && chainUpdates == 1 && repaints == 0
      ensures shouldShowFFTAnalysis == showAnalysis && this.width == width && this.height == height
    {
      audioProcessor := p;
      monoChain := new MonoChain(initial, memory);
      leftPathProducer := new PathProducer(windowSize, 0.0);
      rightPathProducer := new PathProducer(windowSize, 0.0);
      parametersChanges, shouldShowFFTAnalysis := false, showAnalysis;
      this.width, this.height := width, height;
      chainUpdates, repaints := 0, 0;
      new;
      UpdateChain(lib);
    }

    /** parameterValueChanged: whatever changed, the flag is raised. */
    method ParameterValueChanged(parameterIndex: int, newValue: real)
      modifies this
      ensures parametersChanges
      ensures chainUpdates == old(chainUpdates) && repaints == old(repaints)
      ensures shouldShowFFTAnalysis == old(shouldShowFFTAnalysis) && width == old(width) && height == old(height)
    {
      parametersChanges := true;
    }

    /** updateChain: the component's chain gets the bypass flags, the peak
        coefficient contents and the cut bands of one settings snapshot read
        from the processor, at the processor's sample rate. */
    method UpdateChain(lib: DspLibrary)
      requires audioProcessor.Valid()
      modifies this, monoChain, monoChain.peak
      ensures monoChain.Config() == Updated(old(monoChain.Config()), GetChainSettings(audioProcessor.store), audioProcessor.sampleRate, lib)
      ensures monoChain.state == old(monoChain.state)
      ensures chainUpdates == old(chainUpdates) + 1
      ensures parametersChanges == old(parametersChanges) && repaints == old(repaints)
      ensures shouldShowFFTAnalysis == old(shouldShowFFTAnalysis) && width == old(width) && height == old(height)
    {
      var chainSettings := GetChainSettings(audioProcessor.store);
      var sampleRate := audioProcessor.sampleRate;
      monoChain.lowCutBypassed := chainSettings.lowCutBypassed;
      monoChain.highCutBypassed := chainSettings.highCutBypassed;
      monoChain.peakBypassed := chainSettings.peakBypassed;
      var peakCoefficients := new Coefficients(MakePeakFilter(lib, chainSettings, sampleRate));
      UpdateCoefficients(monoChain.peak, peakCoefficients);
      var lowCutCoefficients := lib.makeLowCutFilter(chainSettings, sampleRate);
      var highCutCoefficients := lib.makeHighCutFilter(chainSettings, sampleRate);
      monoChain.lowCut := lib.updateCutFilter(monoChain.lowCut, lowCutCoefficients, chainSettings.lowCutSlope);
      monoChain.highCut := lib.updateCutFilter(monoChain.highCut, highCutCoefficients, chainSettings.highCutSlope);
      chainUpdates := chainUpdates + 1;
    }

    /** timerCallback: when the analyzer is shown, both path producers run
        over the analysis area; then the flag is tested and cleared, the
        chain is brought up to date exactly when it was raised, and a
        repaint is requested on every tick. */
    method TimerCallback(a: Analysis<real>, lib: DspLibrary)
      requires Valid() && audioProcessor.Valid() && a.fftSize > 0
      modifies this, monoChain, monoChain.peak
      modifies leftPathProducer, leftPathProducer.monoBuffer, rightPathProducer, rightPathProducer.monoBuffer
      ensures Valid() && !parametersChanges
      ensures leftPathProducer.monoBuffer == old(leftPathProducer.monoBuffer)
      ensures rightPathProducer.monoBuffer == old(rightPathProducer.monoBuffer)
      ensures chainUpdates == old(chainUpdates) + (if old(parametersChanges) then 1 else 0)
      ensures repaints == old(repaints) + 1
      ensures monoChain.state == old(monoChain.state)
      ensures monoChain.Config() == if old(parametersChanges)
        then Updated(old(monoChain.Config()), GetChainSettings(audioProcessor.store), audioProcessor.sampleRate, lib)
        else old(monoChain.Config())
      ensures shouldShowFFTAnalysis == old(shouldShowFFTAnalysis) && width == old(width) && height == old(height)
      ensures shouldShowFFTAnalysis ==>
        var area := GetAnalysisArea(Bounds());
        && leftPathProducer.fftPath == DisplayedPath(old(leftPathProducer.monoBuffer[..]), old(leftPathProducer.channelFifo),
             old(leftPathProducer.fftBlocks), old(leftPathProducer.paths), old(leftPathProducer.fftPath), area, audioProcessor.sampleRate, a)
        && rightPathProducer.fftPath == DisplayedPath(old(rightPathProducer.monoBuffer[..]), old(rightPathProducer.channelFifo),
             old(rightPathProducer.fftBlocks), old(rightPathProducer.paths), old(rightPathProducer.fftPath), area, audioProcessor.sampleRate, a)
      ensures shouldShowFFTAnalysis ==>
        && leftPathProducer.monoBuffer[..] == Folded(old(leftPathProducer.monoBuffer[..]), old(leftPathProducer.channelFifo))
        && leftPathProducer.channelFifo == [] && leftPathProducer.fftBlocks == [] && leftPathProducer.paths == []
      ensures shouldShowFFTAnalysis ==>
        && rightPathProducer.monoBuffer[..] == Folded(old(rightPathProducer.monoBuffer[..]), old(rightPathProducer.channelFifo))
        && rightPathProducer.channelFifo == [] && rightPathProducer.fftBlocks == [] && rightPathProducer.paths == []
      ensures !shouldShowFFTAnalysis ==>
        unchanged(leftPathProducer, leftPathProducer.monoBuffer, rightPathProducer, rightPathProducer.monoBuffer)
    {
      if shouldShowFFTAnalysis {
        var fftBounds := GetAnalysisArea(Bounds());
        var sampleRate := audioProcessor.sampleRate;
        leftPathProducer.Process(fftBounds, sampleRate, a);
        rightPathProducer.Process(fftBounds, sampleRate, a);
      }
      var wasChanged := parametersChanges;
      parametersChanges := false;
      if wasChanged {
        UpdateChain(lib);
      }
      repaints := repaints + 1;
    }

    /** Two ticks with no parameter change in between bring the chain up to
        date at most once, and only if a change was pending before the
        first; each tick requests a repaint. */
    method TwoTicks(a: Analysis<real>, lib: DspLibrary)
      requires Valid() && audioProcessor.Valid() && a.fftSize > 0
      modifies this, monoChain, monoChain.peak
      modifies leftPathProducer, leftPathProducer.monoBuffer, rightPathProducer, rightPathProducer.monoBuffer
      ensures Valid() && !parametersChanges
      ensures chainUpdates == old(chainUpdates) + (if old(parametersChanges) then 1 else 0)
      ensures repaints == old(repaints) + 2
      ensures monoChain.Config() == if old(parametersChanges)
        then Updated(old(monoChain.Config()), GetChainSettings(audioProcessor.store), audioProcessor.sampleRate, lib)
        else old(monoChain.Config())
    {
      TimerCallback(a, lib);
      TimerCallback(a, lib);
    }

    /** paint: the response curve over the analysis area, and, when the
        analyzer is shown, each channel's spectrum path moved to the area's
        top-left corner.  The area must be at least one column wide, since
        the curve starts at the first column's value. */
    method Paint(lib: DspLibrary) returns (responseCurve: Path, leftTrace: Option<Path>, rightTrace: Option<Path>)
      requires GetAnalysisArea(Bounds()).width > 0
      ensures var area := GetAnalysisArea(Bounds());
        && |responseCurve| == area.width
        && forall i :: 0 <= i < area.width ==>
             responseCurve[i] == Point((area.x + i) as real,
               MapGainToY(ColumnDb(monoChain.Config(), i, area.width, audioProcessor.sampleRate, lib), area))
      ensures var area := GetAnalysisArea(Bounds());
        && leftTrace == (if shouldShowFFTAnalysis then Some(Translated(leftPathProducer.fftPath, area.x, area.y)) else None)
        && rightTrace == (if shouldShowFFTAnalysis then Some(Translated(rightPathProducer.fftPath, area.x, area.y)) else None)
    {
      var responseArea := GetAnalysisArea(Bounds());
      var w := responseArea.width;
      var sampleRate := audioProcessor.sampleRate;
      var mags := ResponseMagnitudes(monoChain.Config(), w, sampleRate, lib);
      responseCurve := CurvePath(mags[..], responseArea);
      leftTrace, rightTrace := None, None;
      if shouldShowFFTAnalysis {
        leftTrace := Some(Translated(leftPathProducer.fftPath, responseArea.x, responseArea.y));
        rightTrace := Some(Translated(rightPathProducer.fftPath, responseArea.x, responseArea.y));
      }
    }
  }
}

=== FILE: slider.dfy ===
/** The rotary slider's two computations that do not draw: where the dial
    sits inside the slider's bounds, and the text shown in its centre. */
module Slider {
  import opened Geometry

  /** getSliderBounds: a square whose side is the smaller of the bounds'
      width and height less two text heights, centred horizontally on the
      bounds and placed 2 pixels from the top. */
  function GetSliderBounds(width: int, height: int, textHeight: int): (r: Rect)
    ensures var size := Min(width, height) - textHeight * 2;
      r.width == size && r.height == size && r.y == 2
    ensures var bounds, size := LocalBounds(width, height), Min(width, height) - textHeight * 2;
      0 <= textHeight && 0 <= size ==>
        && bounds.x <= r.x && r.Right() <= bounds.Right()
        && -1 <= (bounds.Right() - r.Right()) - (r.x - bounds.x) <= 1
    ensures var bounds, size := LocalBounds(width, height), Min(width, height) - textHeight * 2;
      1 <= textHeight && 0 <= size ==> bounds.Encloses(r)
  {
    var bounds := LocalBounds(width, height);
    var size := Min(bounds.width, bounds.height) - textHeight * 2;
    Rect(bounds.CentreX() - TruncDiv(size, 2), 2, size, size)
  }

  /** What the slider is attached to, as far as the display text is
      concerned. */
  datatype SliderParameter =
    | ChoiceParameter(currentChoiceName: string)
    | FloatParameter(value: real)
    | OtherParameter

  /** getDisplayString.  A choice parameter shows its current choice name.
      A float parameter below 1000 shows its value as juce::String does
      when asked for 0 decimal places (its default formatting), and from
      1000 up the value in thousands with 2 decimals; `format(v, places)`
      is that numeric text.  A non-empty suffix is appended after a
      space, with a 'k' in front of it when the value was shown in
      thousands. */
  function GetDisplayString(param: SliderParameter, suffix: string, format: (real, nat) -> string): (s: string)
    ensures param.ChoiceParameter? ==> s == param.currentChoiceName
    ensures param.FloatParameter? ==>
      var addK := param.value >= 1000.0;
      var number := format(if addK then param.value / 1000.0 else param.value, if addK then 2 else 0);
      && |s| == |number| + (if suffix == "" then 0 else 1 + (if addK then 1 else 0) + |suffix|)
      && s[..|number|] == number
      && (suffix != "" ==> s[|number|] == ' ' && s[|s| - |suffix|..] == suffix)
      && (suffix != "" && addK ==> s[|number| + 1] == 'k')
    ensures param.OtherParameter? ==> s == if suffix == "" then "" else " " + suffix
  {
    if param.ChoiceParameter? then param.currentChoiceName
    else
      var addK := param.FloatParameter? && param.value >= 1000.0;
      var str := if param.FloatParameter? then
        format(if addK then param.value / 1000.0 else param.value, if addK then 2 else 0)
      else "";
      if suffix != "" then str + " " + (if addK then "k" else "") + suffix else str
  }
}

=== FILE: text.dfy ===
/** Decimal text for the numbers the editor writes into labels.

    The editor streams numbers into strings (`str << value`).  For the values
    it labels (integral frequencies, gains and slopes) the stream prints the
    plain decimal form without a fractional part, which is what this module
    produces.  `DecimalValue` reads such text back, so the formatting can be
    checked by a round trip. */
module Text {

  predicate IsDigit(c: char) {
    '0' as int <= c as int <= '9' as int
  }

  function DigitChar(d: nat): (c: char)
    requires d < 10
    ensures IsDigit(c) && (c as int) - ('0' as int) == d
  {
    ('0' as int + d) as char
  }

  /** Shortest decimal spelling of `n`, most significant digit first. */
  function NatToDecimal(n: nat): (s: string)
    ensures |s| > 0
    ensures forall i :: 0 <= i < |s| ==> IsDigit(s[i])
    ensures n < 10 <==> |s| == 1
    ensures s[0] == '0' <==> n == 0
    decreases n
  {
    if n < 10 then [DigitChar(n)] else NatToDecimal(n / 10) + [DigitChar(n % 10)]
  }

  /** Decimal spelling of an integer, with a leading '-' when negative. */
  function IntToDecimal(i: int): (s: string)
    ensures |s| > 0
    ensures s[0] == '-' <==> i < 0
    ensures i >= 0 ==> s == NatToDecimal(i)
    ensures i < 0 ==> s == "-" + NatToDecimal(-i)
  {
    if i < 0 then "-" + NatToDecimal(-i) else NatToDecimal(i)
  }

  /** The value of a string of decimal digits. */
  function DecimalValue(s: string): nat
    requires forall i :: 0 <= i < |s| ==> IsDigit(s[i])
  {
    if s == [] then 0
    else
      assert IsDigit(s[|s| - 1]);
      DecimalValue(s[..|s| - 1]) * 10 + ((s[|s| - 1] as int) - ('0' as int))
  }

  /** Reading back the decimal text gives the number that was written. */
  lemma {:induction false} DecimalRoundTrip(n: nat)
    ensures DecimalValue(NatToDecimal(n)) == n
    decreases n
  {
    var s := NatToDecimal(n);
    if n >= 10 {
      DecimalRoundTrip(n / 10);
      assert s[..|s| - 1] == NatToDecimal(n / 10);
    }
  }

  /** Distinct numbers are spelled differently. */
  lemma DecimalInjective(m: nat, n: nat)
    requires NatToDecimal(m) == NatToDecimal(n)
    ensures m == n
  {
    DecimalRoundTrip(m);
    DecimalRoundTrip(n);
  }

  /** The digits of `frac / 1000` after the decimal point, without trailing
      zeros (empty when `frac` is 0). */
  function ThousandthsDigits(frac: nat): (s: string)
    requires frac < 1000
    ensures |s| <= 3
    ensures s == [] <==> frac == 0
    ensures forall i :: 0 <= i < |s| ==> IsDigit(s[i])
  {
    var d := [DigitChar(frac / 100), DigitChar(frac / 10 % 10), DigitChar(frac % 10)];
    if frac == 0 then ""
    else if frac % 100 == 0 then d[..1]
    else if frac % 10 == 0 then d[..2]
    else d
  }

  /** Text of `n / 1000`: the whole part and, when `n` is not a multiple of
      1000, a '.' followed by the fractional digits. */
  function ThousandthsToDecimal(n: nat): (s: string)
    ensures |s| > 0
    ensures n % 1000 == 0 ==> s == NatToDecimal(n / 1000)
  {
    var frac := ThousandthsDigits(n % 1000);
    NatToDecimal(n / 1000) + (if frac == [] then "" else "." + frac)
  }
}

=== FILE: wrappers.dfy ===
/** The optional value used for pulls that may fail and for restored state
    that may not decode. */
module Wrappers {

  datatype Option<+T> = None | Some(value: T)
}
